=== FILE: README.md ===
# Account lifecycle of an authentication backend, in Dafny

This project models the core of a small Express/Mongoose authentication
backend: registration, login, forgot-password and reset-password, the
bearer-token guard in front of the private routes, the profile, password,
settings and deactivation routes, and the input rules that run before each
handler. The model is a sequential state machine. The user collection is an
immutable sequence of records in insertion order. Every route is a pure
function from `(store, request, now)` to `(store', response)`.

Modules, one per source component:

- `Wrappers`: the `Option` type.
- `Text`: the JavaScript string operations the code relies on. These are
  trimming with the `\s` whitespace class, `replace` with a string pattern
  (first occurrence only), and `length` in UTF-16 code units.
- `UserStore`: the `User` record, the store, the single-document queries
  (`Find` returns the first match) and the store invariant `Valid` (unique
  ids, unique e-mail addresses, unique usernames).
- `Platform`: the external functions as fields of an `Env` value. These are
  e-mail checking and normalisation, the password hash and its comparison,
  the SHA-256 digest of reset tokens, and session-token signing and
  verification. `Sound(env)` collects what the proofs assume of them. It
  also holds the 10-minute reset window.
- `Validation`: the rule chains of `backend/middleware/validation.js` and
  their sanitisers.
- `Http`: messages, the response envelope, payloads and JSON values.
- `AuthGuard`: `backend/middleware/auth.js`.
- `AuthRoutes`: `backend/routes/auth.js`.
- `UserRoutes`: `backend/routes/users.js`.
- `Lifecycle`: each route as middleware plus handler, the request
  dispatcher `Serve`, and the properties that span requests.
- `Walkthrough`: one account's life, from registration to a login with a
  reset password.

Behaviour worth knowing:

- The guard removes the first `"Bearer "` wherever it occurs. The prefix
  is not required at the start of the header
  (`Text.ReplaceFirstNotAnchored`).
- Inactive accounts fail login and the guard. Forgot-password and
  reset-password do not check the flag: a deactivated account can reset
  its password and stays deactivated (`AuthRoutes.ForgotThenReset`). The
  reset answers with a session token that the guard then refuses
  (`Lifecycle.ResetTokenAdmitsIffActive`).
- Every `isLength` check measures with the validator library's count:
  characters, with the presentation selectors U+FE0E and U+FE0F not
  counted (`Validation.ValidatorLength`). The password-change route
  instead counts UTF-16 code units (`Text.Utf16Length`).
- Session tokens record their issue time in whole seconds, so a token
  issued at `t` expires at the start of `t`'s second plus the lifetime
  (`Platform.TokenExpiry`).
- The rules differ between endpoints, and the model keeps those
  differences.
  - A password change needs no upper-case letter, lower-case letter or
    digit (`UserRoutes.ChangePasswordSkipsStrengthRule`).
  - A profile update checks only the username's length, not its character
    set (`Validation.ProfileUsernameSkipsCharset`).
- The two reset fields of the user model are always written together. The
  model holds them as one optional `ResetTicket`.
- Lookups return the first record in insertion order that matches. This
  keeps every operation deterministic even on a store that breaks the
  uniqueness invariant.

## Model

| member | source | states |
|---|---|---|
| `Text.Trim` | backend/middleware/validation.js:14-23 | the trimmed value is no longer than the input and has no whitespace at either end |
| `Text.TrimStartIsSuffix` | backend/middleware/validation.js:15 | stripping leading whitespace keeps a suffix of the input |
| `Text.TrimStartCutsWhitespace` | backend/middleware/validation.js:15 | everything stripped from the start is whitespace |
| `Text.TrimEndCutsWhitespace` | backend/middleware/validation.js:15 | everything stripped from the end is whitespace |
| `Text.TidyIsTrimmed` | backend/middleware/validation.js:55-62 | a value with no whitespace at either end is its own trim |
| `Text.TrimIsSlice` | backend/middleware/validation.js:15 | the trimmed value is the stretch of the input between the whitespace cut off at its start and at its end |
| `Text.TrimIsCore` | backend/middleware/validation.js:15 | every value is its trimmed value padded on either side by whitespace only |
| `Text.PaddedTidyIsTrim` | backend/middleware/validation.js:15 | a value that is a core padded by whitespace, where the core has no whitespace at either end, trims to exactly that core; so "padded by whitespace" and "no whitespace at either end" together determine the trim |
| `Text.TrimOfPadded` | backend/middleware/validation.js:14-23 | trimming removes exactly the surrounding whitespace: a core without leading or trailing whitespace, padded by whitespace, trims back to that core |
| `Text.IndexOf` | backend/middleware/auth.js:8 | the result is the first position where the pattern occurs; none is reported only when it occurs nowhere |
| `Text.ReplaceFirst` | backend/middleware/auth.js:8 | the first occurrence of the pattern is cut out; without one the string is unchanged |
| `Text.ReplaceFirstStripsPrefix` | backend/middleware/auth.js:8 | `"Bearer " + t` becomes exactly `t` |
| `Text.ReplaceFirstNotAnchored` | backend/middleware/auth.js:8 | when the pattern first occurs after a prefix, it is removed from the middle and the prefix is kept |
| `Text.Utf16Length` | backend/routes/users.js:87 | JavaScript length: at least the number of characters and at most twice it; equal to it exactly when every character is in the Basic Multilingual Plane, and twice it exactly when none is |
| `Text.Utf16LengthCountsAstral` | backend/routes/users.js:87 | JavaScript length is exactly the number of characters plus the number of characters beyond the Basic Multilingual Plane |
| `UserStore.Find` | backend/routes/auth.js:33-35 | a single-document query returns the first matching record, or reports that no record matches |
| `UserStore.FreshIdExists` | backend/routes/auth.js:41-46 | whatever the store holds, some id is held by no record, so the fresh id a created record needs can always be supplied |
| `UserStore.FindByIdAt` | backend/routes/users.js:36 | when ids are distinct, a lookup by a record's id finds that record |
| `Validation.FirstLineHasIsLookahead` | backend/middleware/validation.js:31 | the scan is equivalent to the lookahead `(?=.*[k])`: some character of the class occurs with no line terminator before it |
| `Validation.ValidatorLengthIsCount` | backend/middleware/validation.js:29 | the length `isLength` measures never exceeds the character count, and equals it exactly when no U+FE0E or U+FE0F occurs |
| `Validation.ValidatorLengthConcat` | backend/middleware/validation.js:29 | the measured length of a concatenation is the sum of the parts' |
| `Validation.PatternMeasuresCharacters` | backend/middleware/validation.js:20-22 | a value matching `^[a-zA-Z0-9._]+$` measures exactly its character count |
| `Validation.NameErrors` | backend/middleware/validation.js:14-17 | the name passes exactly when its trimmed value measures between 2 and 50; otherwise one name error |
| `Validation.UsernameErrors` | backend/middleware/validation.js:18-23 | the username passes exactly when the trimmed value measures 3 to 20 and matches `[a-zA-Z0-9._]+`; the length error is reported exactly when the length fails, the character-set error exactly when the pattern fails |
| `Validation.UsernameLengthErrors` | backend/middleware/validation.js:58-62 | on profile updates the username passes exactly when its trimmed value measures between 3 and 20 |
| `Validation.EmailErrors` | backend/middleware/validation.js:24-27 | the e-mail passes exactly when the e-mail check accepts the raw text; an absent field is checked as "" |
| `Validation.PasswordErrors` | backend/middleware/validation.js:28-32 | the password passes exactly when it measures at least 6 and has an ASCII lower-case letter, upper-case letter and digit, each before the first line terminator; the length error exactly when it measures under 6, the strength error exactly when one of the three is missing |
| `Validation.SelectorsAreNotCounted` | backend/middleware/validation.js:29 | `"Ab1"` followed by three U+FE0F is six characters but measures three, so it draws the length error |
| `Validation.ConfirmErrors` | backend/middleware/validation.js:33-39 | the confirmation passes exactly when it is strictly equal to the password (absent equals only absent) |
| `Validation.RequiredPasswordErrors` | backend/middleware/validation.js:47-49 | the login password passes exactly when it is non-empty |
| `Validation.RegisterErrors` | backend/middleware/validation.js:13-40 | a registration body passes exactly when name, username, e-mail, password strength and confirmation all pass |
| `Validation.LoginErrors` | backend/middleware/validation.js:42-50 | a login body passes exactly when the e-mail is valid and the password non-empty; no strength rule |
| `Validation.ForgotPasswordErrors` | backend/middleware/validation.js:70-75 | a forgot-password body passes exactly when the e-mail is valid |
| `Validation.NewPasswordErrors` | backend/middleware/validation.js:77-90 | a reset body passes exactly when the password meets the registration strength rule and the confirmation equals it |
| `Validation.ProfileErrors` | backend/middleware/validation.js:52-68 | a profile body passes exactly when each present field passes its rule; absent fields are never checked |
| `Validation.SanitizeRegister` | backend/middleware/validation.js:13-40 | the handler reads the name and the username as sent less the whitespace at either end (together this pins each to the trim of what was sent), the e-mail address as normalised from what was sent, and the password exactly as sent |
| `Validation.SanitizeProfile` | backend/middleware/validation.js:52-68 | the handler sees exactly the fields that were sent; a name or username is what was sent less the whitespace at either end, and an e-mail address is the normalised form of what was sent |
| `Validation.RegisterRulesBoundSanitized` | backend/middleware/validation.js:14-23 | a body that passes hands the handler a name measuring 2 to 50 and a pattern username of 3 to 20 characters |
| `Validation.TidyUsernamePassesProfile` | backend/middleware/validation.js:58-62 | any trimmed username measuring 3 to 20 passes the profile rules, whatever its characters |
| `Validation.ForeignCharDrawsCharsetError` | backend/middleware/validation.js:18-23 | a trimmed username holding a character outside `[a-zA-Z0-9._]` draws the registration character-set error |
| `Validation.ProfileUsernameSkipsCharset` | backend/middleware/validation.js:58-62 | the username `a-b` passes the profile rules but fails the registration pattern |
| `Validation.EmptyProfileBodyPasses` | backend/middleware/validation.js:52-68 | a profile body with no fields passes |
| `AuthGuard.Guard` | backend/middleware/auth.js:6-26 | 401 "no token" exactly when there is no header or the stripped token is empty; 401 "invalid token" exactly when the token does not verify; 401 "user not found" exactly when the verified id has no active first record; otherwise the request is admitted with that record |
| `AuthGuard.BearerHeaderYieldsToken` | backend/middleware/auth.js:8 | the header `Bearer <t>` yields the token `t` |
| `AuthGuard.GuardOnValidStore` | backend/middleware/auth.js:14-22 | with distinct ids, a token verifying to a record's id admits it if it is active and is refused as an unknown user if not |
| `AuthRoutes.Register` | backend/routes/auth.js:28-60 | fails with 400 and an unchanged store exactly when some record holds the e-mail or the username; otherwise appends one active record with the hashed password, default preferences and no ticket, and answers 201 with a token for the new id |
| `AuthRoutes.RegisterKeepsValid` | backend/routes/auth.js:33-47 | registration keeps ids, e-mail addresses and usernames unique |
| `AuthRoutes.Login` | backend/routes/auth.js:65-94 | never writes the store; succeeds exactly when the first record with the e-mail is active and accepts the password; every failure is the same 401 response |
| `AuthRoutes.ForgotPassword` | backend/routes/auth.js:99-131 | 404 and no change exactly when no record has the e-mail; otherwise only that record changes, gaining the digest of the token and an expiry 600000 ms on, and the plaintext token is returned; the active flag is not consulted |
| `AuthRoutes.ForgotStoresOnlyDigest` | backend/routes/auth.js:110-117 | the stored ticket never equals the plaintext token, and it expires exactly ten minutes after the request |
| `AuthRoutes.ResetPassword` | backend/routes/auth.js:136-173 | 400 and no change exactly when no record holds a ticket with the token's digest expiring strictly after now; otherwise that record alone gets the new password hash, loses its ticket, keeps everything else, and a session token is returned |
| `AuthRoutes.ForgotThenReset` | backend/routes/auth.js:141-160 | after a forgot-password request at t, the reset succeeds exactly when now < t + 10 min; it then sets the password, keeps the active flag, clears the ticket, and a replay of the token fails at any time |
| `UserRoutes.GetProfile` | backend/routes/users.js:13-26 | 404 exactly when the id has no record; otherwise the record's public profile |
| `UserRoutes.UpdateProfile` | backend/routes/users.js:31-69 | an e-mail held by another record gives 400 first, then a username held by another record; both leave the store unchanged; otherwise only truthy fields are written and nothing else changes |
| `UserRoutes.UpdateProfileKeepsValid` | backend/routes/users.js:43-62 | a profile update keeps e-mail addresses and usernames unique |
| `UserRoutes.OwnValuesNeverClash` | backend/routes/users.js:43-55 | submitting the record's own e-mail and username always succeeds and keeps them |
| `UserRoutes.ChangePassword` | backend/routes/users.js:74-114 | the checks run in order (fields present, new equals confirmation, at least 6 UTF-16 units, record exists, current password matches); the first failure answers and the store is unchanged; on success only the credential changes |
| `UserRoutes.ChangePasswordSkipsStrengthRule` | backend/routes/users.js:79-89 | "aaaaaa" fails the registration password rule but is accepted as a new password |
| `UserRoutes.GetSettings` | backend/routes/users.js:119-132 | 404 exactly when the id has no record; otherwise its preferences |
| `UserRoutes.UpdateSettings` | backend/routes/users.js:137-163 | each preference takes the supplied value only if it is a boolean and keeps its value otherwise; only the preferences of that record change |
| `UserRoutes.NonBooleanSettingsIgnored` | backend/routes/users.js:148-154 | with no boolean value supplied the store is unchanged |
| `UserRoutes.SettingsFieldsIndependent` | backend/routes/users.js:148-154 | the value sent for one preference never affects the other |
| `UserRoutes.Deactivate` | backend/routes/users.js:168-185 | the record stays with its active flag cleared and every other field as it was |
| `Lifecycle.Serve` | backend/routes/auth.js:28-199 | the route table of both routers (register, login, forgot-password and reset-password through their rules; me, logout and the routes of backend/routes/users.js through the guard, via `PrivateRoute`): a failed request never changes the store, and a private request the guard refuses gets exactly the guard's answer |
| `Lifecycle.RegisterRoute` | backend/routes/auth.js:28 | a registration that fails, at its rules or in its handler, leaves the store unchanged |
| `Lifecycle.RegisterRoutePassesThrough` | backend/routes/auth.js:28-54 | a registration body that passes its rules succeeds (201) exactly when neither the normalised e-mail nor the trimmed username is taken, and the new record then holds the trimmed name and username, the normalised e-mail and the hash of the password as sent |
| `Lifecycle.LoginRoute` | backend/routes/auth.js:65 | login never changes the store |
| `Lifecycle.LoginRoutePassesThrough` | backend/routes/auth.js:65-86 | login succeeds (200) exactly when its rules pass and the first record with the normalised e-mail is active and accepts the password as sent |
| `Lifecycle.ForgotPasswordRoute` | backend/routes/auth.js:99 | a forgot-password request that fails leaves the store unchanged |
| `Lifecycle.ForgotPasswordRoutePassesThrough` | backend/routes/auth.js:99-125 | a forgot-password body that passes its rule gets 404 exactly when no record has the normalised e-mail; otherwise that record gets the digest ticket of the drawn token, expiring ten minutes on, and the token is returned |
| `Lifecycle.ResetPasswordRoute` | backend/routes/auth.js:136 | a reset request that fails leaves the store unchanged |
| `Lifecycle.ResetPasswordRoutePassesThrough` | backend/routes/auth.js:136-167 | a reset body that passes its rules gets 400 exactly when no record holds a live ticket for the token; otherwise that record gets the hash of the password as sent, loses its ticket, and the answer is 200 |
| `Lifecycle.PrivateRoute` | backend/routes/users.js:13-185 | a private request that fails, at the guard, the rules or the handler, leaves the store unchanged |
| `Lifecycle.PrivateRoutePassesThrough` | backend/middleware/auth.js:21-22 | a private request the guard admits is handled by its route's handler, for the admitted record |
| `Lifecycle.ProfileRulesPassReachHandler` | backend/routes/users.js:31 | an admitted profile update whose body passes the rules reaches the profile handler with the sanitised body, for the admitted record |
| `Lifecycle.RuleFailureShortCircuits` | backend/middleware/validation.js:5-11 | a public request whose body breaks any rule gets 400 with the full error list, and its handler never runs |
| `Lifecycle.ProfileRuleFailureShortCircuits` | backend/routes/users.js:31 | an admitted profile update whose body breaks a rule gets 400 with the full error list and the store unchanged; its handler never runs |
| `Lifecycle.MeShowsAdmittedUser` | backend/routes/auth.js:178-185 | `me` answers 200 with the public profile of exactly the record the guard admitted, and changes nothing |
| `Lifecycle.LogoutKeepsSession` | backend/routes/auth.js:190-199 | logout answers 200 and changes nothing, so the same header is admitted or refused afterwards exactly as before |
| `Lifecycle.GuardRunsFirst` | backend/routes/users.js:31 | a private request the guard refuses gets a 401 before its body is checked, and changes nothing |
| `Lifecycle.ReadOnlyRoutes` | backend/routes/auth.js:178-199 | login, me, logout, get-profile and get-settings never change the store |
| `Lifecycle.ServeKeepsValid` | backend/routes/users.js:43-62 | every request keeps ids, e-mail addresses and usernames unique |
| `Lifecycle.ServeKeepsRecords` | backend/routes/users.js:177-178 | no record is ever removed, moved or reactivated; only a successful registration adds one |
| `Platform.TokenExpiry` | backend/routes/auth.js:19-23 | a token issued at `t` expires within the second before `t` plus the lifetime, and exactly at `t` plus the lifetime when `t` is a whole second |
| `Lifecycle.LoginTokenAdmits` | backend/routes/auth.js:80-86 | the token a login returns admits the account until it expires and is refused as invalid afterwards |
| `Lifecycle.ResetTokenAdmitsIffActive` | backend/routes/auth.js:158-167 | reset-password always returns a session token, but before expiry the guard admits it exactly when the account is active (a deactivated account's token is refused as an unknown user), and from expiry on it is refused as invalid |
| `Lifecycle.RegisteredTokenAdmits` | backend/routes/auth.js:19-23 | the token a registration returns admits the new account from its issue until its expiry (lifetime after the start of the issuing second) and is refused as invalid from then on |
| `Lifecycle.DeactivationLocksOut` | backend/middleware/auth.js:17-19 | after deletion the same header is refused at any later time and the account's e-mail no longer logs in with any password |
| `Walkthrough.TidyRegistrationPasses` | backend/middleware/validation.js:13-40 | already trimmed, valid fields with a strong, confirmed password pass every rule and reach the handler as sent |
| `Walkthrough.AdaPasswordIsStrong` | backend/middleware/validation.js:31 | "Passw0rd" meets the strength pattern |
| `Walkthrough.AccountLifecycle` | backend/routes/auth.js:28-173 | register (201), login with a wrong password (401), forgot-password (200), reset within the window (200), login with the new password (200) |

## Left out

- I/O and transport are not modelled: the Express router, the response
  helpers and their envelope, and logging. A response is a status, a message
  tag and a payload.
- The 500 paths are not modelled. A store write, a hash or a token signing
  that throws inside a handler cannot happen here, because the store is an
  in-memory sequence and the externals are total functions.
- AuthGuard.Guard: a record lookup that throws (for example on a malformed
  id) would also give 401 "invalid token". The lookup here cannot throw, so
  only a failed verification reaches that answer.
- Token signing and verification, SHA-256, the password hash and its
  comparison, the e-mail check and normalisation are opaque fields of
  `Env`. `Sound` states the assumptions. Password hashing is modelled
  without a salt, and the hash comparison has no 72-byte limit.
- The random reset token and the current time are parameters, not
  generated here.
- The secret and the token lifetime come from the environment. They are
  folded into `sign`/`verify` and `tokenLifetime`.
- `models/User` is not part of this model. New records are active with
  `Env.defaultPreferences`. The password is hashed only when it is written.
  No store-level unique index exists.
- AuthRoutes.Login: assumes `models/User` strips the password hash and
  the reset fields when a document is serialised. Login selects
  `+password` and returns that same document, so without such a transform
  the hash would be sent; the response here carries `Http.ProfileOf`,
  which has no credential field.
- AuthRoutes.Register: makes the same serialisation assumption for the
  created document, which holds the hash.
- AuthRoutes.ResetPassword: makes the same serialisation assumption for
  the saved document, which holds the new hash.
- Request fields other than the settings flags are modelled as absent or a
  string. Numbers, arrays and objects in string fields are not modelled.
- `Sound` assumes the configured token lifetime is a whole number of
  seconds, as the `30d` default is. A lifetime with a fractional second is
  not modelled.
- Two concurrent requests can both pass a uniqueness check before either
  writes. That race is not modelled; the model is sequential.
- More than one `Authorization` header, and the decoding of the reset
  token's path segment, are not modelled.

=== FILE: auth_routes.dfy ===
/** The public account routes (register, login, forgot-password,
    reset-password) and the two private ones that only read (me, logout).
    Each handler receives the body its rules have already accepted and
    sanitised, and maps the store to a new store and a response. */
module AuthRoutes {

  import opened Wrappers
  import opened UserStore
  import opened Platform
  import opened Validation
  import opened Http

  /** Some record already holds the e-mail address or the username. */
  ghost predicate Taken(store: Store, email: string, username: string) {
    exists j :: 0 <= j < |store| && (store[j].email == email || store[j].username == username)
  }

  /** The record a registration creates: active, default preferences, no
      reset ticket, the credential stored hashed. */
  function NewAccount(env: Env, id: Id, reg: Registration): User {
    User(id, reg.name, reg.username, reg.email, env.hashPassword(reg.password), true, env.defaultPreferences, None)
  }

  function Register(env: Env, store: Store, reg: Registration, newId: Id, now: int): (r: Step)
    requires IsFresh(store, newId)
    ensures Taken(store, reg.email, reg.username) <==> r.response.Fail?
    ensures r.response.Fail? ==> r == Step(store, Fail(400, RegisterTaken, []))
    ensures r.response.Ok? ==>
      && |r.store| == |store| + 1 && r.store[..|store|] == store
      && var u := r.store[|store|];
      && u.id == newId && u.name == reg.name && u.username == reg.username && u.email == reg.email
      && u.passwordHash == env.hashPassword(reg.password) && u.isActive
      && u.preferences == env.defaultPreferences && u.reset == None
      && r.response == Ok(201, Registered, Session(ProfileOf(u), env.sign(newId, now)))
  {
    match Find(store, ByEmailOrUsername(reg.email, reg.username))
    case Some(i) =>
      assert store[i].email == reg.email || store[i].username == reg.username;
      Step(store, Fail(400, RegisterTaken, []))
    case None =>
      var u := NewAccount(env, newId, reg);
      assert (store + [u])[..|store|] == store;
      Step(store + [u], Ok(201, Registered, Session(ProfileOf(u), env.sign(newId, now))))
  }

  /** Registration keeps every id, e-mail address and username unique. */
  lemma RegisterKeepsValid(env: Env, store: Store, reg: Registration, newId: Id, now: int)
    requires Valid(store) && IsFresh(store, newId)
    ensures Valid(Register(env, store, reg, newId, now).store)
  {
    var r := Register(env, store, reg, newId, now);
    if r.response.Ok? {
      assert !Taken(store, reg.email, reg.username);
      assert forall j :: 0 <= j < |store| ==> r.store[j] == store[j];
    }
  }

  /** Login: the first record with that e-mail must exist, be active and
      accept the password. Every failure yields the same 401 response, so
      an unknown address, a deactivated account and a wrong password cannot
      be told apart; the store is never written. */
  function Login(env: Env, store: Store, email: string, password: string, now: int): (r: Step)
    ensures r.store == store
    ensures r.response.Ok? <==>
      exists i :: FirstHit(store, ByEmail(email), i) && store[i].isActive
        && env.passwordMatches(store[i].passwordHash, password)
    ensures r.response.Fail? ==> r.response == Fail(401, InvalidCredentials, [])
    ensures forall i :: FirstHit(store, ByEmail(email), i) && r.response.Ok? ==>
      r.response == Ok(200, LoggedIn, Session(ProfileOf(store[i]), env.sign(store[i].id, now)))
  {
    match Find(store, ByEmail(email))
    case None => Step(store, Fail(401, InvalidCredentials, []))
    case Some(i) =>
      assert forall j :: FirstHit(store, ByEmail(email), j) ==> j == i;
      if !store[i].isActive then Step(store, Fail(401, InvalidCredentials, []))
      else if !env.passwordMatches(store[i].passwordHash, password) then Step(store, Fail(401, InvalidCredentials, []))
      else Step(store, Ok(200, LoggedIn, Session(ProfileOf(store[i]), env.sign(store[i].id, now))))
  }

  /** The ticket a forgot-password request leaves on the record. */
  function TicketFor(env: Env, rawToken: string, now: int): ResetTicket {
    ResetTicket(env.digest(rawToken), now + ResetWindowMs)
  }

  /** Forgot-password: an unknown e-mail address is reported as such (404);
      otherwise the first record with that address gets a fresh ticket, the
      digest of the random token expiring ten minutes on, replacing any
      earlier ticket, and the plaintext token goes back in the response.
      Whether the account is active is not consulted. */
  function ForgotPassword(env: Env, store: Store, email: string, rawToken: string, now: int): (r: Step)
    requires IsResetTokenText(rawToken)
    ensures NoHit(store, ByEmail(email)) <==> r.response.Fail?
    ensures r.response.Fail? ==> r == Step(store, Fail(404, ResetEmailUnknown, []))
    ensures forall i :: FirstHit(store, ByEmail(email), i) ==>
      && SameExcept(store, r.store, i)
      && r.store[i] == store[i].(reset := Some(ResetTicket(env.digest(rawToken), now + 600000)))
      && r.response == Ok(200, ResetLinkSent, ResetTokenIssued(rawToken))
  {
    match Find(store, ByEmail(email))
    case None => Step(store, Fail(404, ResetEmailUnknown, []))
    case Some(i) =>
      assert forall j :: FirstHit(store, ByEmail(email), j) ==> j == i;
      Step(store[i := store[i].(reset := Some(TicketFor(env, rawToken, now)))],
           Ok(200, ResetLinkSent, ResetTokenIssued(rawToken)))
  }

  /** The stored ticket is a 64-digit digest, so it never equals the 40-digit
      plaintext token handed out. */
  lemma ForgotStoresOnlyDigest(env: Env, store: Store, email: string, rawToken: string, now: int, i: int)
    requires Sound(env) && IsResetTokenText(rawToken)
    requires FirstHit(store, ByEmail(email), i)
    ensures var t := ForgotPassword(env, store, email, rawToken, now).store[i].reset;
      t.Some? && t.value.tokenDigest != rawToken && t.value.expiresAt - now == ResetWindowMs
  {
    assert IsHexText(env.digest(rawToken), 64);
  }

  /** Reset-password: the first record holding a ticket with the digest of
      the presented token that expires strictly after `now` gets the new
      password, and its ticket is dropped; nothing else about it changes
      (in particular not whether it is active). Without such a record the
      request is refused with 400. */
  function ResetPassword(env: Env, store: Store, token: string, password: string, now: int): (r: Step)
    ensures NoHit(store, ByLiveReset(env.digest(token), now)) <==> r.response.Fail?
    ensures r.response.Fail? ==> r == Step(store, Fail(400, InvalidResetToken, []))
    ensures forall i :: FirstHit(store, ByLiveReset(env.digest(token), now), i) ==>
      && SameExcept(store, r.store, i)
      && r.store[i] == store[i].(passwordHash := env.hashPassword(password), reset := None)
      && r.response == Ok(200, PasswordUpdated, Session(ProfileOf(r.store[i]), env.sign(store[i].id, now)))
  {
    match Find(store, ByLiveReset(env.digest(token), now))
    case None => Step(store, Fail(400, InvalidResetToken, []))
    case Some(i) =>
      assert forall j :: FirstHit(store, ByLiveReset(env.digest(token), now), j) ==> j == i;
      var u := store[i].(passwordHash := env.hashPassword(password), reset := None);
      Step(store[i := u], Ok(200, PasswordUpdated, Session(ProfileOf(u), env.sign(u.id, now))))
  }

  /** The current account, as the guard loaded it. */
  function Me(user: User): Response {
    Ok(200, CurrentUser, Account(ProfileOf(user)))
  }

  /** Tokens are not tracked, so logging out only acknowledges. */
  function Logout(): Response {
    Ok(200, LoggedOut, NoData)
  }

  /** No record other than `i` holds a ticket with digest `d`. */
  ghost predicate DigestOnlyAt(store: Store, d: string, i: int) {
    forall j :: 0 <= j < |store| && j != i ==> !(store[j].reset.Some? && store[j].reset.value.tokenDigest == d)
  }

  /** A forgot-password request issued at `t` followed by a reset with the
      same token at `now`: the reset succeeds exactly when `now` is strictly
      before `t` plus ten minutes (at the expiry instant it already fails).
      When it succeeds it rewrites that record's credential, keeps its
      active flag, and the token cannot be used again, at any time, with
      any password. */
  lemma ForgotThenReset(env: Env, store: Store, email: string, raw: string, t: int,
                        password: string, now: int, i: int, password2: string, later: int)
    requires IsResetTokenText(raw) && FirstHit(store, ByEmail(email), i)
    requires DigestOnlyAt(store, env.digest(raw), i)
    ensures var s1 := ForgotPassword(env, store, email, raw, t).store;
      var r := ResetPassword(env, s1, raw, password, now);
      && (r.response.Ok? <==> now < t + ResetWindowMs)
      && (r.response.Ok? ==>
           && r.store[i].passwordHash == env.hashPassword(password)
           && r.store[i].isActive == store[i].isActive
           && r.store[i].reset == None
           && ResetPassword(env, r.store, raw, password2, later).response.Fail?)
  {
    var d := env.digest(raw);
    var s1 := ForgotPassword(env, store, email, raw, t).store;
    assert s1[i].reset == Some(ResetTicket(d, t + ResetWindowMs));
    assert forall j :: 0 <= j < |s1| && j != i ==> !Hits(ByLiveReset(d, now), s1[j]);
    var r := ResetPassword(env, s1, raw, password, now);
    if now < t + ResetWindowMs {
      assert FirstHit(s1, ByLiveReset(d, now), i);
      assert NoHit(r.store, ByLiveReset(d, later)) by {
        forall j | 0 <= j < |r.store|
          ensures !Hits(ByLiveReset(d, later), r.store[j])
        {
          if j != i {
            assert r.store[j] == store[j];
          }
        }
      }
    } else {
      assert NoHit(s1, ByLiveReset(d, now));
    }
  }

}

=== FILE: guard.dfy ===
/** The bearer-token middleware in front of every private route. */
module AuthGuard {

  import opened Wrappers
  import opened Text
  import opened UserStore
  import opened Platform
  import opened Http

  const BearerPrefix: string := "Bearer "

  /** The guard's decision: let the request through with the account it
      belongs to, or answer it with a 401. */
  datatype Verdict = Admit(user: User) | Deny(response: Response)

  /** The token is the header with the first `"Bearer "` removed, wherever
      it occurs; no header, no token. */
  function ExtractToken(header: Option<string>): Option<string> {
    match header
    case None => None
    case Some(h) => Some(ReplaceFirst(h, BearerPrefix))
  }

  /** The first record carrying `id` is an active account. */
  ghost predicate ActiveAccount(store: Store, id: Id) {
    exists i :: FirstHit(store, ById(id), i) && store[i].isActive
  }

  function Guard(env: Env, store: Store, header: Option<string>, now: int): (v: Verdict)
    ensures v.Deny? ==> v.response.Fail? && v.response.status == 401 && v.response.errors == []
    ensures v.Deny? && v.response.message == NoToken <==> ExtractToken(header) in {None, Some("")}
    ensures v.Deny? && v.response.message == InvalidToken <==>
      ExtractToken(header) !in {None, Some("")} && env.verify(ExtractToken(header).value, now).None?
    ensures v.Deny? && v.response.message == UserNotFound <==>
      && ExtractToken(header) !in {None, Some("")}
      && env.verify(ExtractToken(header).value, now).Some?
      && !ActiveAccount(store, env.verify(ExtractToken(header).value, now).value)
    ensures v.Admit? <==>
      && ExtractToken(header) !in {None, Some("")}
      && env.verify(ExtractToken(header).value, now).Some?
      && ActiveAccount(store, env.verify(ExtractToken(header).value, now).value)
    ensures v.Admit? ==>
      && v.user.isActive
      && env.verify(ExtractToken(header).value, now) == Some(v.user.id)
      && exists i :: FirstHit(store, ById(v.user.id), i) && store[i] == v.user
  {
    var token := ExtractToken(header);
    if token.None? || token.value == "" then
      Deny(Fail(401, NoToken, []))
    else
      match env.verify(token.value, now)
      case None => Deny(Fail(401, InvalidToken, []))
      case Some(id) =>
        match Find(store, ById(id))
        case None => Deny(Fail(401, UserNotFound, []))
        case Some(i) =>
          if !store[i].isActive then
            assert forall j :: FirstHit(store, ById(id), j) ==> j == i;
            Deny(Fail(401, UserNotFound, []))
          else
            Admit(store[i])
  }

  /** A header `"Bearer " + t` yields exactly `t`. */
  lemma BearerHeaderYieldsToken(t: string)
    ensures ExtractToken(Some(BearerPrefix + t)) == Some(t)
  {
    ReplaceFirstStripsPrefix(BearerPrefix, t);
  }

  /** In a store with distinct ids, a token that verifies to the id of an
      active record is admitted with that record, and one that verifies to
      an inactive record's id is refused as an unknown user. */
  lemma GuardOnValidStore(env: Env, store: Store, t: string, now: int, i: int)
    requires DistinctIds(store) && 0 <= i < |store|
    requires t != "" && env.verify(t, now) == Some(store[i].id)
    ensures store[i].isActive ==> Guard(env, store, Some(BearerPrefix + t), now) == Admit(store[i])
    ensures !store[i].isActive ==> Guard(env, store, Some(BearerPrefix + t), now) == Deny(Fail(401, UserNotFound, []))
  {
    BearerHeaderYieldsToken(t);
    FindByIdAt(store, i);
  }

}

=== FILE: http.dfy ===
/** The uniform response envelope, the JSON values a settings request may
    carry, and the public view of a user record. */
module Http {

  import opened UserStore
  import opened Validation

  /** One constructor per message text the handlers and middleware send. */
  datatype Message =
    | ValidationFailed      // the rules refused the body
    | NoToken               // no session token supplied
    | InvalidToken          // the token did not verify
    | UserNotFound          // no (active) account for the request
    | Registered
    | RegisterTaken         // e-mail or username already in use
    | LoggedIn
    | InvalidCredentials    // one text for every login failure
    | ResetEmailUnknown     // no account with that e-mail
    | ResetLinkSent
    | InvalidResetToken     // invalid or expired reset token
    | PasswordUpdated       // after a reset and after a password change alike
    | CurrentUser
    | LoggedOut
    | ProfileShown
    | ProfileUpdated
    | EmailTaken
    | UsernameTaken
    | AllFieldsRequired
    | NewPasswordsDiffer
    | NewPasswordTooShort
    | WrongCurrentPassword
    | SettingsShown
    | SettingsUpdated
    | AccountDeactivated

  /** A user record as responses show it: without the credential and
      without the reset ticket. */
  datatype Profile = Profile(
    id: Id,
    name: string,
    username: string,
    email: string,
    isActive: bool,
    preferences: Preferences)

  function ProfileOf(u: User): Profile {
    Profile(u.id, u.name, u.username, u.email, u.isActive, u.preferences)
  }

  datatype Payload =
    | NoData
    | Session(user: Profile, token: string)
    | ResetTokenIssued(resetToken: string)
    | Account(profile: Profile)
    | Settings(preferences: Preferences)

  datatype Response =
    | Ok(status: nat, message: Message, data: Payload)
    | Fail(status: nat, message: Message, errors: seq<FieldError>)

  /** A request's outcome: the store afterwards and the response sent. */
  datatype Step = Step(store: Store, response: Response)

  /** A JSON value as it may arrive in a request body. */
  datatype Json = JNull | JBool(b: bool) | JNumber(n: int) | JString(s: string) | JArray(items: seq<Json>) | JObject

}

=== FILE: lifecycle.dfy ===
/** The whole backend as one sequential state machine: a request is checked
    by its rules (public routes) or by the guard and then its rules (private
    routes), handed to its handler, and answered. Properties that span
    several requests live here. */
module Lifecycle {

  import opened Wrappers
  import opened Text
  import opened UserStore
  import opened Platform
  import opened Validation
  import opened Http
  import opened AuthGuard
  import opened AuthRoutes
  import opened UserRoutes

  datatype Request =
    | RegisterRequest(register: RegisterBody)
    | LoginRequest(login: LoginBody)
    | ForgotPasswordRequest(email: Option<string>)
    | ResetPasswordRequest(token: string, newPassword: NewPasswordBody)
    | MeRequest(authorization: Option<string>)
    | LogoutRequest(authorization: Option<string>)
    | GetProfileRequest(authorization: Option<string>)
    | UpdateProfileRequest(authorization: Option<string>, profile: ProfileBody)
    | ChangePasswordRequest(authorization: Option<string>, currentPassword: Option<string>,
                            newPasswordField: Option<string>, confirmPassword: Option<string>)
    | GetSettingsRequest(authorization: Option<string>)
    | UpdateSettingsRequest(authorization: Option<string>, notifications: Option<Json>, darkMode: Option<Json>)
    | DeleteAccountRequest(authorization: Option<string>)

  /** What a request may draw from outside: the id a new record gets and the
      random reset token a forgot-password request hands out. */
  datatype Entropy = Entropy(newId: Id, resetToken: string)

  predicate Usable(store: Store, draw: Entropy) {
    IsFresh(store, draw.newId) && IsResetTokenText(draw.resetToken)
  }

  /** The response when the rules refuse a body: 400 with every error. */
  function Rejected(store: Store, errs: seq<FieldError>): Step {
    Step(store, Fail(400, ValidationFailed, errs))
  }

  predicate IsPrivate(req: Request) {
    !(req.RegisterRequest? || req.LoginRequest? || req.ForgotPasswordRequest? || req.ResetPasswordRequest?)
  }

  /** The handler of a private route, once the guard has admitted `u`. */
  function ServeAdmitted(env: Env, store: Store, req: Request, u: User): (r: Step)
    requires IsPrivate(req)
    ensures r.response.Fail? ==> r.store == store
  {
    match req
    case MeRequest(_) => Step(store, Me(u))
    case LogoutRequest(_) => Step(store, Logout())
    case GetProfileRequest(_) => Step(store, GetProfile(store, u.id))
    case UpdateProfileRequest(_, b) =>
      var errs := ProfileErrors(env, b);
      if errs != [] then Rejected(store, errs) else UpdateProfile(store, u.id, SanitizeProfile(env, b))
    case ChangePasswordRequest(_, c, n, k) => ChangePassword(env, store, u.id, c, n, k)
    case GetSettingsRequest(_) => Step(store, GetSettings(store, u.id))
    case UpdateSettingsRequest(_, n, d) => UpdateSettings(store, u.id, n, d)
    case DeleteAccountRequest(_) => Deactivate(store, u.id)
  }

  function RegisterRoute(env: Env, store: Store, b: RegisterBody, newId: Id, now: int): (r: Step)
    requires IsFresh(store, newId)
    ensures r.response.Fail? ==> r.store == store
  {
    var errs := RegisterErrors(env, b);
    if errs != [] then Rejected(store, errs)
    else Register(env, store, SanitizeRegister(env, b), newId, now)
  }

  function LoginRoute(env: Env, store: Store, b: LoginBody, now: int): (r: Step)
    ensures r.store == store
  {
    var errs := LoginErrors(env, b);
    if errs != [] then Rejected(store, errs)
    else Login(env, store, env.normalizeEmail(TextOf(b.email)), TextOf(b.password), now)
  }

  function ForgotPasswordRoute(env: Env, store: Store, email: Option<string>, rawToken: string, now: int): (r: Step)
    requires IsResetTokenText(rawToken)
    ensures r.response.Fail? ==> r.store == store
  {
    var errs := ForgotPasswordErrors(env, email);
    if errs != [] then Rejected(store, errs)
    else ForgotPassword(env, store, env.normalizeEmail(TextOf(email)), rawToken, now)
  }

  function ResetPasswordRoute(env: Env, store: Store, token: string, b: NewPasswordBody, now: int): (r: Step)
    ensures r.response.Fail? ==> r.store == store
  {
    var errs := NewPasswordErrors(b);
    if errs != [] then Rejected(store, errs)
    else ResetPassword(env, store, token, TextOf(b.password), now)
  }

  function PrivateRoute(env: Env, store: Store, req: Request, now: int): (r: Step)
    requires IsPrivate(req)
    ensures r.response.Fail? ==> r.store == store
  {
    match Guard(env, store, req.authorization, now)
    case Deny(resp) => Step(store, resp)
    case Admit(u) => ServeAdmitted(env, store, req, u)
  }

  /** The route table. Public routes run their rules and then their
      handler; private routes run the guard, then (profile updates only)
      their rules, then their handler. Every handler answers a failure
      before it writes, so a failed request leaves the store as it was. */
  function Serve(env: Env, store: Store, req: Request, now: int, draw: Entropy): (r: Step)
    requires Usable(store, draw)
    ensures r.response.Fail? ==> r.store == store
    ensures IsPrivate(req) && Guard(env, store, req.authorization, now).Deny? ==>
      r == Step(store, Guard(env, store, req.authorization, now).response)
  {
    match req
    case RegisterRequest(b) => RegisterRoute(env, store, b, draw.newId, now)
    case LoginRequest(b) => LoginRoute(env, store, b, now)
    case ForgotPasswordRequest(e) => ForgotPasswordRoute(env, store, e, draw.resetToken, now)
    case ResetPasswordRequest(t, b) => ResetPasswordRoute(env, store, t, b, now)
    case _ => PrivateRoute(env, store, req, now)
  }

  /** The rules a request's body must pass before its handler runs, as far
      as they can be evaluated before the guard. */
  function PublicRuleErrors(env: Env, req: Request): seq<FieldError>
    requires !IsPrivate(req)
  {
    match req
    case RegisterRequest(b) => RegisterErrors(env, b)
    case LoginRequest(b) => LoginErrors(env, b)
    case ForgotPasswordRequest(e) => ForgotPasswordErrors(env, e)
    case ResetPasswordRequest(_, b) => NewPasswordErrors(b)
  }

  /** A public request whose body breaks any rule is answered with 400 and
      the full list of errors, and its handler never runs. */
  lemma RuleFailureShortCircuits(env: Env, store: Store, req: Request, now: int, draw: Entropy)
    requires Usable(store, draw) && !IsPrivate(req) && PublicRuleErrors(env, req) != []
    ensures Serve(env, store, req, now, draw) == Step(store, Fail(400, ValidationFailed, PublicRuleErrors(env, req)))
  {
  }

  /** A profile update whose body breaks a rule, from an admitted caller, is
      answered with 400 and the full list of errors, and its handler never
      runs; the same short-circuit as on the public routes. */
  lemma ProfileRuleFailureShortCircuits(env: Env, store: Store, header: Option<string>, b: ProfileBody,
                                        now: int, draw: Entropy)
    requires Usable(store, draw)
    requires Guard(env, store, header, now).Admit? && ProfileErrors(env, b) != []
    ensures Serve(env, store, UpdateProfileRequest(header, b), now, draw)
      == Step(store, Fail(400, ValidationFailed, ProfileErrors(env, b)))
  {
    var req := UpdateProfileRequest(header, b);
    var u := Guard(env, store, header, now).user;
    assert Serve(env, store, req, now, draw) == PrivateRoute(env, store, req, now);
    assert PrivateRoute(env, store, req, now) == ServeAdmitted(env, store, req, u);
  }

  /** A registration body that passes its rules reaches the handler
      sanitised: it succeeds exactly when neither the normalised e-mail
      address nor the trimmed username is taken, and then the new record
      holds the trimmed name and username, the normalised address and the
      hash of the password as sent. */
  lemma RegisterRoutePassesThrough(env: Env, store: Store, b: RegisterBody, newId: Id, now: int)
    requires IsFresh(store, newId) && RegisterErrors(env, b) == []
    ensures var r := RegisterRoute(env, store, b, newId, now);
      var email := env.normalizeEmail(TextOf(b.email));
      var username := Trim(TextOf(b.username));
      && (r.response.Ok? <==> !Taken(store, email, username))
      && (r.response.Ok? ==>
            && r.response.status == 201 && |r.store| == |store| + 1
            && r.store[|store|].id == newId
            && r.store[|store|].name == Trim(TextOf(b.name))
            && r.store[|store|].username == username
            && r.store[|store|].email == email
            && r.store[|store|].passwordHash == env.hashPassword(TextOf(b.password)))
  {
  }

  /** Login succeeds exactly when its rules pass and the first record with
      the normalised e-mail address is active and accepts the password as
      sent. */
  lemma LoginRoutePassesThrough(env: Env, store: Store, b: LoginBody, now: int)
    ensures var r := LoginRoute(env, store, b, now);
      && (r.response.Ok? <==>
            && LoginErrors(env, b) == []
            && exists i :: FirstHit(store, ByEmail(env.normalizeEmail(TextOf(b.email))), i)
                 && store[i].isActive && env.passwordMatches(store[i].passwordHash, TextOf(b.password)))
      && (r.response.Ok? ==> r.response.status == 200)
  {
  }

  /** A forgot-password request whose rule passes reaches the handler with
      the normalised e-mail address: 404 exactly when no record has it,
      otherwise that record gets the ticket for the drawn token. */
  lemma ForgotPasswordRoutePassesThrough(env: Env, store: Store, email: Option<string>, rawToken: string, now: int)
    requires IsResetTokenText(rawToken) && ForgotPasswordErrors(env, email) == []
    ensures var r := ForgotPasswordRoute(env, store, email, rawToken, now);
      var e := env.normalizeEmail(TextOf(email));
      && (r.response.Fail? <==> NoHit(store, ByEmail(e)))
      && (r.response.Fail? ==> r.response.status == 404)
      && forall i :: FirstHit(store, ByEmail(e), i) ==>
           && r.store[i].reset == Some(ResetTicket(env.digest(rawToken), now + ResetWindowMs))
           && r.response == Ok(200, ResetLinkSent, ResetTokenIssued(rawToken))
  {
  }

  /** A reset request whose rules pass reaches the handler with the
      password as sent: 400 exactly when no record holds a live ticket for
      the token, otherwise that record gets the new credential and loses
      its ticket. */
  lemma ResetPasswordRoutePassesThrough(env: Env, store: Store, token: string, b: NewPasswordBody, now: int)
    requires NewPasswordErrors(b) == []
    ensures var r := ResetPasswordRoute(env, store, token, b, now);
      var q := ByLiveReset(env.digest(token), now);
      && (r.response.Fail? <==> NoHit(store, q))
      && (r.response.Fail? ==> r.response.status == 400)
      && forall i :: FirstHit(store, q, i) ==>
           && r.store[i].passwordHash == env.hashPassword(TextOf(b.password))
           && r.store[i].reset == None
           && r.response.Ok? && r.response.status == 200
  {
  }

  /** A private request the guard admits reaches its handler, for the
      admitted record. */
  lemma PrivateRoutePassesThrough(env: Env, store: Store, req: Request, now: int, u: User)
    requires IsPrivate(req) && Guard(env, store, req.authorization, now) == Admit(u)
    ensures PrivateRoute(env, store, req, now) == ServeAdmitted(env, store, req, u)
  {
  }

  /** An admitted profile update whose body passes the rules reaches the
      handler with the sanitised body, for the admitted record. */
  lemma ProfileRulesPassReachHandler(env: Env, store: Store, header: Option<string>, b: ProfileBody,
                                     now: int, u: User)
    requires Guard(env, store, header, now) == Admit(u) && ProfileErrors(env, b) == []
    ensures PrivateRoute(env, store, UpdateProfileRequest(header, b), now)
      == UpdateProfile(store, u.id, SanitizeProfile(env, b))
  {
    assert PrivateRoute(env, store, UpdateProfileRequest(header, b), now)
      == ServeAdmitted(env, store, UpdateProfileRequest(header, b), u);
  }

  /** `me` answers with the public profile of exactly the record the guard
      admitted, and changes nothing. */
  lemma MeShowsAdmittedUser(env: Env, store: Store, header: Option<string>, now: int, draw: Entropy)
    requires Usable(store, draw) && Guard(env, store, header, now).Admit?
    ensures Serve(env, store, MeRequest(header), now, draw)
      == Step(store, Ok(200, CurrentUser, Account(ProfileOf(Guard(env, store, header, now).user))))
  {
  }

  /** Logging out is only acknowledged: the store is untouched, so the same
      header is admitted or refused afterwards exactly as it would have been
      without the logout. */
  lemma LogoutKeepsSession(env: Env, store: Store, header: Option<string>, now: int, later: int, draw: Entropy)
    requires Usable(store, draw) && Guard(env, store, header, now).Admit?
    ensures var r := Serve(env, store, LogoutRequest(header), now, draw);
      && r.response == Ok(200, LoggedOut, NoData)
      && Guard(env, r.store, header, later) == Guard(env, store, header, later)
  {
  }

  /** A private request the guard refuses is answered with the guard's 401
      whatever its body holds, and changes nothing; the guard runs before
      the rules of a profile update. */
  lemma GuardRunsFirst(env: Env, store: Store, req: Request, now: int, draw: Entropy)
    requires Usable(store, draw) && IsPrivate(req)
    requires Guard(env, store, req.authorization, now).Deny?
    ensures var r := Serve(env, store, req, now, draw);
      r.store == store && r.response.Fail? && r.response.status == 401
  {
  }

  /** Login and every read-only route leave the store untouched. */
  lemma ReadOnlyRoutes(env: Env, store: Store, req: Request, now: int, draw: Entropy)
    requires Usable(store, draw)
    requires req.LoginRequest? || req.MeRequest? || req.LogoutRequest? || req.GetProfileRequest? || req.GetSettingsRequest?
    ensures Serve(env, store, req, now, draw).store == store
  {
  }

  lemma ForgotPasswordRouteKeepsValid(env: Env, store: Store, email: Option<string>, rawToken: string, now: int)
    requires Valid(store) && IsResetTokenText(rawToken)
    ensures Valid(ForgotPasswordRoute(env, store, email, rawToken, now).store)
  {
    var r := ForgotPasswordRoute(env, store, email, rawToken, now);
    var q := ByEmail(env.normalizeEmail(TextOf(email)));
    if ForgotPasswordErrors(env, email) == [] && !NoHit(store, q) {
      KeysKeptValid(store, r.store, Find(store, q).value);
    }
  }

  lemma ResetPasswordRouteKeepsValid(env: Env, store: Store, token: string, b: NewPasswordBody, now: int)
    requires Valid(store)
    ensures Valid(ResetPasswordRoute(env, store, token, b, now).store)
  {
    var r := ResetPasswordRoute(env, store, token, b, now);
    var q := ByLiveReset(env.digest(token), now);
    if NewPasswordErrors(b) == [] && !NoHit(store, q) {
      KeysKeptValid(store, r.store, Find(store, q).value);
    }
  }

  lemma ServeAdmittedKeepsValid(env: Env, store: Store, req: Request, u: User)
    requires Valid(store) && IsPrivate(req)
    ensures Valid(ServeAdmitted(env, store, req, u).store)
  {
    var r := ServeAdmitted(env, store, req, u);
    if !NoHit(store, ById(u.id)) {
      var i := Find(store, ById(u.id)).value;
      match req
      case UpdateProfileRequest(_, b) =>
        if ProfileErrors(env, b) == [] {
          UpdateProfileKeepsValid(store, u.id, SanitizeProfile(env, b));
        }
      case ChangePasswordRequest(_, c, n, k) =>
        if r.response.Ok? {
          KeysKeptValid(store, r.store, i);
        }
      case UpdateSettingsRequest(_, n, d) =>
        KeysKeptValid(store, r.store, i);
      case DeleteAccountRequest(_) =>
        KeysKeptValid(store, r.store, i);
      case _ =>
    }
  }

  /** Every request keeps ids, e-mail addresses and usernames unique. */
  lemma ServeKeepsValid(env: Env, store: Store, req: Request, now: int, draw: Entropy)
    requires Valid(store) && Usable(store, draw)
    ensures Valid(Serve(env, store, req, now, draw).store)
  {
    match req
    case RegisterRequest(b) =>
      if RegisterErrors(env, b) == [] {
        RegisterKeepsValid(env, store, SanitizeRegister(env, b), draw.newId, now);
      }
    case LoginRequest(_) =>
    case ForgotPasswordRequest(e) =>
      ForgotPasswordRouteKeepsValid(env, store, e, draw.resetToken, now);
    case ResetPasswordRequest(t, b) =>
      ResetPasswordRouteKeepsValid(env, store, t, b, now);
    case _ =>
      match Guard(env, store, req.authorization, now)
      case Deny(_) =>
      case Admit(u) => ServeAdmittedKeepsValid(env, store, req, u);
  }

  /** What every request preserves about the records already there: none
      is removed or moved, each keeps its id, and none is reactivated. */
  ghost predicate KeepsRecords(store: Store, after: Store) {
    && |store| <= |after|
    && forall i :: 0 <= i < |store| ==>
         after[i].id == store[i].id && (!store[i].isActive ==> !after[i].isActive)
  }

  lemma ServeAdmittedKeepsRecords(env: Env, store: Store, req: Request, u: User)
    requires IsPrivate(req)
    ensures var r := ServeAdmitted(env, store, req, u);
      KeepsRecords(store, r.store) && |r.store| == |store|
  {
    var r := ServeAdmitted(env, store, req, u);
    if !NoHit(store, ById(u.id)) {
      var i := Find(store, ById(u.id)).value;
      assert FirstHit(store, ById(u.id), i);
      assert SameExcept(store, r.store, i);
      assert r.store[i].id == store[i].id;
      assert !store[i].isActive ==> !r.store[i].isActive;
    }
  }

  lemma RegisterRouteKeepsRecords(env: Env, store: Store, b: RegisterBody, newId: Id, now: int)
    requires IsFresh(store, newId)
    ensures var r := RegisterRoute(env, store, b, newId, now);
      && KeepsRecords(store, r.store)
      && |r.store| <= |store| + 1
      && (|r.store| > |store| ==> r.response.status == 201)
  {
  }

  lemma ForgotPasswordRouteKeepsRecords(env: Env, store: Store, email: Option<string>, rawToken: string, now: int)
    requires IsResetTokenText(rawToken)
    ensures var r := ForgotPasswordRoute(env, store, email, rawToken, now);
      KeepsRecords(store, r.store) && |r.store| == |store|
  {
    var r := ForgotPasswordRoute(env, store, email, rawToken, now);
    var q := ByEmail(env.normalizeEmail(TextOf(email)));
    if ForgotPasswordErrors(env, email) == [] && !NoHit(store, q) {
      assert SameExcept(store, r.store, Find(store, q).value);
    }
  }

  lemma ResetPasswordRouteKeepsRecords(env: Env, store: Store, token: string, b: NewPasswordBody, now: int)
    ensures var r := ResetPasswordRoute(env, store, token, b, now);
      KeepsRecords(store, r.store) && |r.store| == |store|
  {
    var r := ResetPasswordRoute(env, store, token, b, now);
    var q := ByLiveReset(env.digest(token), now);
    if NewPasswordErrors(b) == [] && !NoHit(store, q) {
      assert SameExcept(store, r.store, Find(store, q).value);
    }
  }

  lemma PrivateRouteKeepsRecords(env: Env, store: Store, req: Request, now: int)
    requires IsPrivate(req)
    ensures var r := PrivateRoute(env, store, req, now);
      KeepsRecords(store, r.store) && |r.store| == |store|
  {
    match Guard(env, store, req.authorization, now)
    case Deny(_) =>
    case Admit(u) => ServeAdmittedKeepsRecords(env, store, req, u);
  }

  /** Records are never removed or reordered and keep their ids; only a
      successful registration adds one, at the end; and a deactivated
      account is never reactivated. */
  lemma ServeKeepsRecords(env: Env, store: Store, req: Request, now: int, draw: Entropy)
    requires Usable(store, draw)
    ensures var r := Serve(env, store, req, now, draw);
      && KeepsRecords(store, r.store)
      && |r.store| <= |store| + 1
      && (|r.store| > |store| ==> req.RegisterRequest? && r.response.status == 201)
  {
    var r := Serve(env, store, req, now, draw);
    match req
    case RegisterRequest(b) =>
      assert r == RegisterRoute(env, store, b, draw.newId, now);
      RegisterRouteKeepsRecords(env, store, b, draw.newId, now);
    case LoginRequest(b) =>
      assert r == LoginRoute(env, store, b, now);
    case ForgotPasswordRequest(e) =>
      assert r == ForgotPasswordRoute(env, store, e, draw.resetToken, now);
      ForgotPasswordRouteKeepsRecords(env, store, e, draw.resetToken, now);
    case ResetPasswordRequest(t, b) =>
      assert r == ResetPasswordRoute(env, store, t, b, now);
      ResetPasswordRouteKeepsRecords(env, store, t, b, now);
    case _ =>
      assert r == PrivateRoute(env, store, req, now);
      PrivateRouteKeepsRecords(env, store, req, now);
  }

  /** The session token a successful registration hands out, presented as
      `Bearer <token>`, admits the new account until the token expires (its
      lifetime after the start of the second it was issued in) and is
      refused as invalid from then on. */
  lemma RegisteredTokenAdmits(env: Env, store: Store, reg: Registration, newId: Id, now: int, later: int)
    requires Sound(env) && Valid(store) && IsFresh(store, newId)
    requires Register(env, store, reg, newId, now).response.Ok?
    ensures var r := Register(env, store, reg, newId, now);
      var session := r.response.data;
      && session.Session?
      && (now <= later < TokenExpiry(env, now) ==>
            PrivateRoute(env, r.store, MeRequest(Some(BearerPrefix + session.token)), later)
              == Step(r.store, Ok(200, CurrentUser, Account(session.user))))
      && (TokenExpiry(env, now) <= later ==>
            PrivateRoute(env, r.store, MeRequest(Some(BearerPrefix + session.token)), later)
              == Step(r.store, Fail(401, InvalidToken, [])))
  {
    var r := Register(env, store, reg, newId, now);
    RegisterKeepsValid(env, store, reg, newId, now);
    var u := r.store[|store|];
    var token := env.sign(newId, now);
    assert r.response.data == Session(ProfileOf(u), token);
    var header := Some(BearerPrefix + token);
    assert token != "";
    BearerHeaderYieldsToken(token);
    if now <= later < TokenExpiry(env, now) {
      assert env.verify(token, later) == Some(u.id);
      GuardOnValidStore(env, r.store, token, later, |store|);
      assert Guard(env, r.store, header, later) == Admit(u);
    } else if TokenExpiry(env, now) <= later {
      assert env.verify(token, later) == None;
      assert Guard(env, r.store, header, later) == Deny(Fail(401, InvalidToken, []));
    }
  }

  /** The session token a successful login hands out admits the account
      it names until the token expires, and is refused as invalid from then
      on. */
  lemma LoginTokenAdmits(env: Env, store: Store, email: string, password: string, now: int, later: int)
    requires Sound(env) && DistinctIds(store)
    requires Login(env, store, email, password, now).response.Ok?
    ensures var session := Login(env, store, email, password, now).response.data;
      && session.Session?
      && (now <= later < TokenExpiry(env, now) ==>
            PrivateRoute(env, store, MeRequest(Some(BearerPrefix + session.token)), later)
              == Step(store, Ok(200, CurrentUser, Account(session.user))))
      && (TokenExpiry(env, now) <= later ==>
            PrivateRoute(env, store, MeRequest(Some(BearerPrefix + session.token)), later)
              == Step(store, Fail(401, InvalidToken, [])))
  {
    var i :| FirstHit(store, ByEmail(email), i) && store[i].isActive
      && env.passwordMatches(store[i].passwordHash, password);
    var token := env.sign(store[i].id, now);
    assert Login(env, store, email, password, now).response.data == Session(ProfileOf(store[i]), token);
    var header := Some(BearerPrefix + token);
    assert token != "";
    BearerHeaderYieldsToken(token);
    if now <= later < TokenExpiry(env, now) {
      assert env.verify(token, later) == Some(store[i].id);
      GuardOnValidStore(env, store, token, later, i);
      assert Guard(env, store, header, later) == Admit(store[i]);
    } else if TokenExpiry(env, now) <= later {
      assert env.verify(token, later) == None;
      assert Guard(env, store, header, later) == Deny(Fail(401, InvalidToken, []));
    }
  }

  /** Reset-password hands out a session token whether or not the account
      is active, but the guard admits it only for an active account: before
      expiry it admits an active account and refuses a deactivated one as
      an unknown user, and from expiry on it is refused as invalid. */
  lemma ResetTokenAdmitsIffActive(env: Env, store: Store, token: string, password: string, now: int,
                                  later: int, i: int)
    requires Sound(env) && DistinctIds(store)
    requires FirstHit(store, ByLiveReset(env.digest(token), now), i)
    ensures var r := ResetPassword(env, store, token, password, now);
      var session := r.response.data;
      var header := Some(BearerPrefix + session.token);
      && r.response.Ok? && session.Session?
      && (now <= later < TokenExpiry(env, now) ==>
            (Guard(env, r.store, header, later).Admit? <==> store[i].isActive))
      && (now <= later < TokenExpiry(env, now) && store[i].isActive ==>
            PrivateRoute(env, r.store, MeRequest(header), later)
              == Step(r.store, Ok(200, CurrentUser, Account(session.user))))
      && (now <= later < TokenExpiry(env, now) && !store[i].isActive ==>
            PrivateRoute(env, r.store, MeRequest(header), later)
              == Step(r.store, Fail(401, UserNotFound, [])))
      && (TokenExpiry(env, now) <= later ==>
            PrivateRoute(env, r.store, MeRequest(header), later)
              == Step(r.store, Fail(401, InvalidToken, [])))
  {
    var r := ResetPassword(env, store, token, password, now);
    assert SameExcept(store, r.store, i);
    assert DistinctIds(r.store) by {
      forall j, k | 0 <= j < k < |r.store|
        ensures r.store[j].id != r.store[k].id
      {
        assert r.store[j].id == store[j].id && r.store[k].id == store[k].id;
      }
    }
    var t := env.sign(store[i].id, now);
    assert r.response.data == Session(ProfileOf(r.store[i]), t);
    var header := Some(BearerPrefix + t);
    assert t != "";
    BearerHeaderYieldsToken(t);
    if now <= later < TokenExpiry(env, now) {
      assert env.verify(t, later) == Some(r.store[i].id);
      GuardOnValidStore(env, r.store, t, later, i);
    } else if TokenExpiry(env, now) <= later {
      assert env.verify(t, later) == None;
      assert Guard(env, r.store, header, later) == Deny(Fail(401, InvalidToken, []));
    }
  }

  /** Once an admitted account deletes itself, the same header is refused
      from then on and its e-mail address and password no longer log in,
      although the record is still there. */
  lemma DeactivationLocksOut(env: Env, store: Store, header: Option<string>, now: int, draw: Entropy,
                             later: int, password: string)
    requires Sound(env) && Valid(store) && Usable(store, draw)
    requires Guard(env, store, header, now).Admit?
    ensures var u := Guard(env, store, header, now).user;
      var r := Serve(env, store, DeleteAccountRequest(header), now, draw);
      && r.response == Ok(200, AccountDeactivated, NoData)
      && |r.store| == |store|
      && Guard(env, r.store, header, later).Deny?
      && Login(env, r.store, u.email, password, later).response == Fail(401, InvalidCredentials, [])
  {
    var u := Guard(env, store, header, now).user;
    var i := Find(store, ById(u.id)).value;
    var r := Serve(env, store, DeleteAccountRequest(header), now, draw);
    assert SameExcept(store, r.store, i);
    KeysKeptValid(store, r.store, i);
    assert !r.store[i].isActive;
    FindByIdAt(r.store, i);
    assert FirstHit(r.store, ByEmail(u.email), i);
  }

}

=== FILE: platform.dfy ===
/** The collaborators the backend calls but that are not part of this model,
    reduced to the functions the route handlers use, plus the constants the
    handlers fix. Time is an explicit millisecond count `now`. */
module Platform {

  import opened Wrappers
  import opened UserStore

  /** A reset token stays usable for ten minutes. */
  const ResetWindowMs: int := 10 * 60 * 1000

  /** The external functions:
      - `isEmail`, `normalizeEmail`: the validator library's e-mail check and
        canonicalisation;
      - `hashPassword`: the credential hash the user model applies when the
        password is written; `passwordMatches(stored, plain)` its comparison;
      - `digest`: SHA-256 rendered as lower-case hex, applied to reset tokens;
      - `sign(id, now)`: a session token for `id` issued at `now`;
        `verify(token, now)`: the id a token carries, if it is well formed,
        correctly signed and unexpired at `now`;
      - `tokenLifetime`: the configured session-token lifetime in
        milliseconds (thirty days unless configured otherwise), a whole
        number of seconds;
      - `defaultPreferences`: the preferences a new record starts with. */
  datatype Env = Env(
    isEmail: string -> bool,
    normalizeEmail: string -> string,
    hashPassword: string -> string,
    passwordMatches: (string, string) -> bool,
    digest: string -> string,
    sign: (Id, int) -> string,
    verify: (string, int) -> Option<Id>,
    tokenLifetime: int,
    defaultPreferences: Preferences)

  predicate IsLowerHex(c: char) {
    '0' <= c <= '9' || 'a' <= c <= 'f'
  }

  /** `n` lower-case hexadecimal digits. */
  predicate IsHexText(s: string, n: nat) {
    |s| == n && forall i :: 0 <= i < |s| ==> IsLowerHex(s[i])
  }

  /** What twenty random bytes rendered as hex look like: the shape of every
      plaintext reset token the backend hands out. */
  predicate IsResetTokenText(t: string) {
    IsHexText(t, 40)
  }

  /** When a session token issued at `t` expires. Tokens record their issue
      time in whole seconds, rounded down, so expiry comes up to 999 ms
      before `t + tokenLifetime`. */
  function TokenExpiry(env: Env, t: int): (e: int)
    ensures t + env.tokenLifetime - 1000 < e <= t + env.tokenLifetime
    ensures t % 1000 == 0 ==> e == t + env.tokenLifetime
  {
    (t / 1000) * 1000 + env.tokenLifetime
  }

  /** The behaviour the model relies on from the external functions: a
      positive token lifetime of whole seconds; a password matches its own
      hash; digests are 64 hex digits; session tokens are never empty,
      verify to their id before their expiry and fail from it on; and a
      token names one id whenever it verifies. */
  ghost predicate Sound(env: Env) {
    && env.tokenLifetime > 0 && env.tokenLifetime % 1000 == 0
    && (forall p :: env.passwordMatches(env.hashPassword(p), p))
    && (forall x :: IsHexText(env.digest(x), 64))
    && (forall id: Id, t: int :: env.sign(id, t) != "")
    && (forall id: Id, t: int, now: int :: t <= now < TokenExpiry(env, t) ==> env.verify(env.sign(id, t), now) == Some(id))
    && (forall id: Id, t: int, now: int :: TokenExpiry(env, t) <= now ==> env.verify(env.sign(id, t), now) == None)
    && (forall t, a, b :: env.verify(t, a).Some? && env.verify(t, b).Some? ==> env.verify(t, a) == env.verify(t, b))
  }

}

=== FILE: store.dfy ===
/** The user collection of the backend: one record per account, held in
    insertion order, and the document-store lookups the route handlers issue
    against it. A lookup returns the first record it meets, as a single-
    document query does. */
module UserStore {

  import opened Wrappers

  /** A record's identity, assigned once at creation. */
  type Id = nat

  datatype Preferences = Preferences(notifications: bool, darkMode: bool)

  /** A pending password reset: the digest of the token that was handed out
      and the instant (in milliseconds) from which it no longer works. The
      source keeps these as two nullable fields that are always set and
      cleared together. */
  datatype ResetTicket = ResetTicket(tokenDigest: string, expiresAt: int)

  datatype User = User(
    id: Id,
    name: string,
    username: string,
    email: string,
    passwordHash: string,
    isActive: bool,
    preferences: Preferences,
    reset: Option<ResetTicket>)

  type Store = seq<User>

  /** The queries the handlers issue. */
  datatype Query =
    | ById(id: Id)
    | ByEmail(email: string)
    | ByEmailOrUsername(email: string, username: string)
    | ByLiveReset(digest: string, now: int)
    | ByEmailOfOther(email: string, other: Id)
    | ByUsernameOfOther(username: string, other: Id)

  /** A reset ticket with this digest that has not yet expired at `now`:
      the expiry must lie strictly after `now`. */
  predicate LiveTicket(u: User, digest: string, now: int) {
    u.reset.Some? && u.reset.value.tokenDigest == digest && u.reset.value.expiresAt > now
  }

  predicate Hits(q: Query, u: User) {
    match q
    case ById(id) => u.id == id
    case ByEmail(e) => u.email == e
    case ByEmailOrUsername(e, n) => u.email == e || u.username == n
    case ByLiveReset(d, now) => LiveTicket(u, d, now)
    case ByEmailOfOther(e, other) => u.email == e && u.id != other
    case ByUsernameOfOther(n, other) => u.username == n && u.id != other
  }

  /** `i` is the position of the first record `q` matches. */
  predicate FirstHit(s: Store, q: Query, i: int) {
    0 <= i < |s| && Hits(q, s[i]) && forall j :: 0 <= j < i ==> !Hits(q, s[j])
  }

  predicate NoHit(s: Store, q: Query) {
    forall j :: 0 <= j < |s| ==> !Hits(q, s[j])
  }

  /** A single-document query: the first matching record, if any. */
  function Find(s: Store, q: Query): (r: Option<nat>)
    ensures r.Some? ==> FirstHit(s, q, r.value)
    ensures r.None? ==> NoHit(s, q)
  {
    if |s| == 0 then None
    else if Hits(q, s[0]) then Some(0)
    else
      match Find(s[1..], q)
      case None => None
      case Some(k) =>
        assert forall j :: 1 <= j <= k ==> s[j] == s[1..][j - 1];
        Some(k + 1)
  }

  /** No two records share an id. */
  ghost predicate DistinctIds(s: Store) {
    forall i, j :: 0 <= i < j < |s| ==> s[i].id != s[j].id
  }

  /** No two records share an e-mail address, and none share a username. */
  ghost predicate UniqueKeys(s: Store) {
    forall i, j :: 0 <= i < j < |s| ==> s[i].email != s[j].email && s[i].username != s[j].username
  }

  /** The store invariant every operation must keep. */
  ghost predicate Valid(s: Store) {
    DistinctIds(s) && UniqueKeys(s)
  }

  predicate IsFresh(s: Store, id: Id) {
    forall i :: 0 <= i < |s| ==> s[i].id != id
  }

  /** An id no record holds yet: one greater than every id in use. */
  function NextId(s: Store): (r: Id)
    ensures IsFresh(s, r)
    ensures forall i :: 0 <= i < |s| ==> s[i].id < r
  {
    if |s| == 0 then 0
    else
      var rest := NextId(s[1..]);
      assert forall i :: 1 <= i < |s| ==> s[i] == s[1..][i - 1];
      if rest > s[0].id then rest else s[0].id + 1
  }

  /** Some id is always free, so registration's demand for a fresh id can
      always be met, whatever the store holds. */
  lemma FreshIdExists(s: Store)
    ensures exists id: Id :: IsFresh(s, id)
  {
    var id := NextId(s);
    assert IsFresh(s, id);
  }

  /** `t` is `s` with at most the record at `i` rewritten. */
  ghost predicate SameExcept(s: Store, t: Store, i: int) {
    |t| == |s| && forall j :: 0 <= j < |s| && j != i ==> t[j] == s[j]
  }

  /** With distinct ids, the record at `i` is the one a lookup by its id finds. */
  lemma FindByIdAt(s: Store, i: int)
    requires DistinctIds(s) && 0 <= i < |s|
    ensures Find(s, ById(s[i].id)) == Some(i)
  {
    var r := Find(s, ById(s[i].id));
    if r.Some? {
      assert s[r.value].id == s[i].id;
    }
  }

  /** Rewriting one record without touching its id, e-mail or username keeps
      the store invariant. */
  lemma KeysKeptValid(s: Store, t: Store, i: int)
    requires Valid(s) && SameExcept(s, t, i) && 0 <= i < |s|
    requires t[i].id == s[i].id && t[i].email == s[i].email && t[i].username == s[i].username
    ensures Valid(t)
  {
  }

}

=== FILE: text.dfy ===
/** The JavaScript string primitives the backend leans on: trimming (as the
    validator library does it), `String.prototype.replace` with a string
    pattern, and `length` counted in UTF-16 code units. */
module Text {

  import opened Wrappers

  /** The characters of JavaScript's `\s` class, which trimming strips. */
  predicate IsWhitespace(c: char) {
    var n := c as int;
    n == 0x09 || n == 0x0A || n == 0x0B || n == 0x0C || n == 0x0D || n == 0x20
    || n == 0xA0 || n == 0x1680 || (0x2000 <= n <= 0x200A) || n == 0x2028
    || n == 0x2029 || n == 0x202F || n == 0x205F || n == 0x3000 || n == 0xFEFF
  }

  predicate AllWhitespace(s: string) {
    forall i :: 0 <= i < |s| ==> IsWhitespace(s[i])
  }

  /** Strips leading whitespace: what is left does not start with
      whitespace (`TrimStartCutsWhitespace`: it is a suffix of `s`, and
      everything cut off was whitespace). */
  function TrimStart(s: string): (r: string)
    ensures |r| <= |s|
    ensures r == [] || !IsWhitespace(r[0])
  {
    if |s| > 0 && IsWhitespace(s[0]) then TrimStart(s[1..]) else s
  }

  /** Strips trailing whitespace: a prefix of `s` that does not end with
      whitespace (`TrimEndCutsWhitespace`: everything cut off was
      whitespace). */
  function TrimEnd(s: string): (r: string)
    ensures |r| <= |s| && r == s[..|r|]
    ensures r == [] || !IsWhitespace(r[|r| - 1])
  {
    if |s| > 0 && IsWhitespace(s[|s| - 1]) then TrimEnd(s[..|s| - 1]) else s
  }

  /** `TrimStart(s)` is a suffix of `s`. */
  lemma {:induction false} TrimStartIsSuffix(s: string)
    ensures forall i :: 0 <= i < |TrimStart(s)| ==> TrimStart(s)[i] == s[|s| - |TrimStart(s)| + i]
  {
    if |s| > 0 && IsWhitespace(s[0]) {
      var r := TrimStart(s[1..]);
      TrimStartIsSuffix(s[1..]);
      forall i | 0 <= i < |r|
        ensures r[i] == s[|s| - |r| + i]
      {
        assert r[i] == s[1..][|s| - 1 - |r| + i];
      }
    }
  }

  /** What `TrimStart` cuts off is whitespace. */
  lemma {:induction false} TrimStartCutsWhitespace(s: string)
    ensures forall i :: 0 <= i < |s| - |TrimStart(s)| ==> IsWhitespace(s[i])
  {
    if |s| > 0 && IsWhitespace(s[0]) {
      var r := TrimStart(s[1..]);
      TrimStartCutsWhitespace(s[1..]);
      forall i | 0 <= i < |s| - |r|
        ensures IsWhitespace(s[i])
      {
        if i > 0 {
          assert s[i] == s[1..][i - 1];
        }
      }
    }
  }

  /** What `TrimEnd` cuts off is whitespace. */
  lemma {:induction false} TrimEndCutsWhitespace(s: string)
    ensures forall i :: |TrimEnd(s)| <= i < |s| ==> IsWhitespace(s[i])
  {
    if |s| > 0 && IsWhitespace(s[|s| - 1]) {
      var t := s[..|s| - 1];
      TrimEndCutsWhitespace(t);
      assert forall i :: 0 <= i < |t| ==> t[i] == s[i];
    }
  }

  /** No whitespace at either end: what trimming leaves. */
  predicate Tidy(s: string) {
    s == [] || (!IsWhitespace(s[0]) && !IsWhitespace(s[|s| - 1]))
  }

  /** Whitespace stripped from both ends. */
  function Trim(s: string): (r: string)
    ensures |r| <= |s|
    ensures Tidy(r)
  {
    var t := TrimStart(s);
    var r := TrimEnd(t);
    assert r != [] ==> r[0] == t[0];
    r
  }

  lemma {:induction false} TrimStartSkipsPadding(p: string, t: string)
    requires AllWhitespace(p)
    ensures TrimStart(p + t) == TrimStart(t)
    decreases |p|
  {
    if |p| > 0 {
      assert (p + t)[1..] == p[1..] + t;
      TrimStartSkipsPadding(p[1..], t);
    } else {
      assert p + t == t;
    }
  }

  lemma {:induction false} TrimEndSkipsPadding(t: string, q: string)
    requires AllWhitespace(q)
    ensures TrimEnd(t + q) == TrimEnd(t)
    decreases |q|
  {
    if |q| > 0 {
      assert (t + q)[..|t + q| - 1] == t + q[..|q| - 1];
      TrimEndSkipsPadding(t, q[..|q| - 1]);
    } else {
      assert t + q == t;
    }
  }

  /** A string that does not start with whitespace loses nothing to
      `TrimStart`. */
  lemma TidyStartsItself(core: string, q: string)
    requires Tidy(core)
    ensures core != [] ==> TrimStart(core + q) == core + q
    ensures core == [] ==> TrimStart(core + q) == TrimStart(q)
  {
    if core == [] {
      assert core + q == q;
    } else {
      assert (core + q)[0] == core[0];
    }
  }

  /** The reference characterisation of `Trim`: a core that neither starts
      nor ends with whitespace, padded on either side by whitespace only,
      trims back to exactly that core. */
  lemma TrimOfPadded(p: string, core: string, q: string)
    requires AllWhitespace(p) && AllWhitespace(q)
    requires Tidy(core)
    ensures Trim(p + core + q) == core
  {
    assert p + core + q == p + (core + q);
    TrimStartSkipsPadding(p, core + q);
    TidyStartsItself(core, q);
    if core == [] {
      assert core + q == q;
      TrimStartIsSuffix(q);
      assert TrimStart(q) == [];
    } else {
      TrimEndSkipsPadding(core, q);
    }
  }

  /** A tidy string is its own trim. */
  lemma TidyIsTrimmed(s: string)
    requires Tidy(s)
    ensures Trim(s) == s
  {
    TrimOfPadded([], s, []);
    assert [] + s + [] == s;
  }

  /** `sent` is `core` with whitespace, and only whitespace, on either
      side. */
  ghost predicate PaddedBy(sent: string, core: string) {
    exists p, q :: AllWhitespace(p) && AllWhitespace(q) && sent == p + core + q
  }

  /** The trim of `s` is the slice of `s` between the whitespace it cuts
      off at either end. */
  lemma TrimIsSlice(s: string)
    ensures var k := |s| - |TrimStart(s)|;
      && k + |Trim(s)| <= |s|
      && Trim(s) == s[k..k + |Trim(s)|]
      && AllWhitespace(s[..k])
      && AllWhitespace(s[k + |Trim(s)|..])
  {
    var t := TrimStart(s);
    var r := TrimEnd(t);
    assert r == Trim(s);
    var k := |s| - |t|;
    var m := k + |r|;
    TrimStartIsSuffix(s);
    TrimStartCutsWhitespace(s);
    TrimEndCutsWhitespace(t);
    forall i | 0 <= i < |r|
      ensures r[i] == s[k..m][i]
    {
      assert r[i] == t[i];
    }
    forall i | 0 <= i < k
      ensures IsWhitespace(s[..k][i])
    {
    }
    forall j | 0 <= j < |s| - m
      ensures IsWhitespace(s[m..][j])
    {
      assert s[m..][j] == t[|r| + j];
    }
  }

  /** The converse of `TrimOfPadded`: every string is its trim padded by
      whitespace. */
  lemma TrimIsCore(s: string)
    ensures PaddedBy(s, Trim(s))
  {
    TrimIsSlice(s);
    var k := |s| - |TrimStart(s)|;
    var m := k + |Trim(s)|;
    assert s == s[..k] + s[k..m] + s[m..];
  }

  /** A string padded out from a core with no whitespace at either end
      trims back to exactly that core: the two facts pin the trim. */
  lemma PaddedTidyIsTrim(sent: string, core: string)
    requires PaddedBy(sent, core) && Tidy(core)
    ensures Trim(sent) == core
  {
    var p, q :| AllWhitespace(p) && AllWhitespace(q) && sent == p + core + q;
    TrimOfPadded(p, core, q);
  }

  /** `pat` occurs in `s` starting at index `i`. */
  predicate OccursAt(s: string, pat: string, i: int) {
    0 <= i && i + |pat| <= |s| && s[i..i + |pat|] == pat
  }

  /** `i` is the first index at which `pat` occurs in `s`. */
  predicate FirstOccurrence(s: string, pat: string, i: int) {
    OccursAt(s, pat, i) && forall j :: 0 <= j < i ==> !OccursAt(s, pat, j)
  }

  lemma OccursShift(s: string, pat: string, j: int)
    requires |s| > 0 && 1 <= j
    ensures OccursAt(s, pat, j) <==> OccursAt(s[1..], pat, j - 1)
  {
    if j + |pat| <= |s| {
      assert s[1..][j - 1..j - 1 + |pat|] == s[j..j + |pat|];
    }
  }

  /** `String.prototype.indexOf`: the first index at which `pat` occurs. */
  function IndexOf(s: string, pat: string): (r: Option<nat>)
    ensures r.Some? ==> FirstOccurrence(s, pat, r.value)
    ensures r.None? ==> forall j :: 0 <= j <= |s| ==> !OccursAt(s, pat, j)
  {
    if pat <= s then
      assert s[0..|pat|] == pat;
      Some(0)
    else if |s| == 0 then
      None
    else
      assert forall j :: 1 <= j ==> (OccursAt(s, pat, j) <==> OccursAt(s[1..], pat, j - 1)) by {
        forall j | 1 <= j {
          OccursShift(s, pat, j);
        }
      }
      assert !OccursAt(s, pat, 0);
      match IndexOf(s[1..], pat)
      case None => None
      case Some(k) => Some(k + 1)
  }

  /** `s.replace(pat, "")` with a string pattern: the first occurrence of
      `pat`, wherever it is, is cut out; without one, `s` is unchanged. */
  function ReplaceFirst(s: string, pat: string): (r: string)
    ensures (forall j :: 0 <= j <= |s| ==> !OccursAt(s, pat, j)) ==> r == s
    ensures forall i :: FirstOccurrence(s, pat, i) ==> r == s[..i] + s[i + |pat|..]
  {
    match IndexOf(s, pat)
    case None => s
    case Some(i) => s[..i] + s[i + |pat|..]
  }

  /** Removing a leading pattern leaves exactly what followed it. */
  lemma ReplaceFirstStripsPrefix(pat: string, t: string)
    ensures ReplaceFirst(pat + t, pat) == t
  {
    assert OccursAt(pat + t, pat, 0);
    assert FirstOccurrence(pat + t, pat, 0);
    assert (pat + t)[|pat|..] == t;
  }

  /** The removal is not anchored: when `pat` first occurs after some
      prefix `p`, it is cut out of the middle and `p` stays in place. */
  lemma ReplaceFirstNotAnchored(p: string, pat: string, t: string)
    requires forall j :: 0 <= j < |p| ==> !OccursAt(p + pat + t, pat, j)
    ensures ReplaceFirst(p + pat + t, pat) == p + t
  {
    var s := p + pat + t;
    assert s[|p|..|p| + |pat|] == pat;
    assert FirstOccurrence(s, pat, |p|);
    assert s[..|p|] == p;
    assert s[|p| + |pat|..] == t;
  }

  /** JavaScript's `length`: characters beyond the Basic Multilingual Plane
      take two UTF-16 code units. */
  function Utf16Length(s: string): (n: nat)
    ensures |s| <= n <= 2 * |s|
    ensures n == |s| <==> forall i :: 0 <= i < |s| ==> s[i] as int <= 0xFFFF
    ensures n == 2 * |s| <==> forall i :: 0 <= i < |s| ==> s[i] as int > 0xFFFF
  {
    if |s| == 0 then 0
    else
      var rest := Utf16Length(s[1..]);
      assert forall i :: 1 <= i < |s| ==> s[i] == s[1..][i - 1];
      (if s[0] as int <= 0xFFFF then 1 else 2) + rest
  }

  /** The length of a concatenation is the sum of the parts' lengths: with
      the one-character case, the count is one code unit per character and
      one more per character beyond the Basic Multilingual Plane. */
  lemma {:induction false} Utf16LengthConcat(a: string, b: string)
    ensures Utf16Length(a + b) == Utf16Length(a) + Utf16Length(b)
    decreases |a|
  {
    if |a| == 0 {
      assert a + b == b;
    } else {
      assert (a + b)[1..] == a[1..] + b;
      Utf16LengthConcat(a[1..], b);
    }
  }

  /** The positions of `s` holding a character beyond the Basic
      Multilingual Plane. */
  ghost function AstralPositions(s: string): set<nat> {
    set i: nat | i < |s| && s[i] as int > 0xFFFF
  }

  /** Dropping the last character drops at most its own position. */
  lemma AstralPositionsOfPrefix(s: string)
    requires |s| > 0
    ensures var k := |s| - 1;
      AstralPositions(s) == AstralPositions(s[..k]) + (if s[k] as int > 0xFFFF then {k} else {})
  {
  }

  /** The exact count: one code unit per character, plus one per character
      beyond the Basic Multilingual Plane. */
  lemma {:induction false} Utf16LengthCountsAstral(s: string)
    ensures Utf16Length(s) == |s| + |AstralPositions(s)|
  {
    if |s| == 0 {
      assert AstralPositions(s) == {};
    } else {
      var k := |s| - 1;
      var p := s[..k];
      Utf16LengthCountsAstral(p);
      Utf16LengthConcat(p, [s[k]]);
      assert p + [s[k]] == s;
      AstralPositionsOfPrefix(s);
      assert k !in AstralPositions(p);
    }
  }

}
=== FILE: user_routes.dfy ===
/** The private profile routes. Each handler receives the id of the account
    the guard admitted, looks the record up again (404 if it is gone) and
    works on that record only. */
module UserRoutes {

  import opened Wrappers
  import opened Text
  import opened UserStore
  import opened Platform
  import opened Validation
  import opened Http

  /** JavaScript truthiness of an optional string: present and non-empty. */
  predicate Truthy(v: Option<string>) {
    v.Some? && v.value != ""
  }

  /** `if (v) field = v`: a truthy value replaces the field, anything else
      leaves it. */
  function Overwrite(v: Option<string>, current: string): string {
    if Truthy(v) then v.value else current
  }

  function GetProfile(store: Store, id: Id): (r: Response)
    ensures NoHit(store, ById(id)) <==> r == Fail(404, UserNotFound, [])
    ensures forall i :: FirstHit(store, ById(id), i) ==> r == Ok(200, ProfileShown, Account(ProfileOf(store[i])))
  {
    match Find(store, ById(id))
    case None => Fail(404, UserNotFound, [])
    case Some(i) =>
      assert forall j :: FirstHit(store, ById(id), j) ==> j == i;
      Ok(200, ProfileShown, Account(ProfileOf(store[i])))
  }

  /** The new e-mail address clashes: it is truthy, differs from the
      record's own, and another record holds it. */
  ghost predicate EmailClash(store: Store, u: User, email: Option<string>) {
    Truthy(email) && email.value != u.email && !NoHit(store, ByEmailOfOther(email.value, u.id))
  }

  /** The same for the username. */
  ghost predicate UsernameClash(store: Store, u: User, username: Option<string>) {
    Truthy(username) && username.value != u.username && !NoHit(store, ByUsernameOfOther(username.value, u.id))
  }

  /** Profile update: an e-mail clash is reported first, then a username
      clash, and either leaves the store as it was; otherwise every truthy
      field is written and nothing else about the record, or any other
      record, changes. */
  function UpdateProfile(store: Store, id: Id, b: ProfileBody): (r: Step)
    ensures NoHit(store, ById(id)) ==> r == Step(store, Fail(404, UserNotFound, []))
    ensures forall i :: FirstHit(store, ById(id), i) ==>
      var u := store[i];
      && (EmailClash(store, u, b.email) ==> r == Step(store, Fail(400, EmailTaken, [])))
      && (!EmailClash(store, u, b.email) && UsernameClash(store, u, b.username) ==>
            r == Step(store, Fail(400, UsernameTaken, [])))
      && (!EmailClash(store, u, b.email) && !UsernameClash(store, u, b.username) ==>
            && SameExcept(store, r.store, i)
            && r.store[i] == u.(name := Overwrite(b.name, u.name),
                                username := Overwrite(b.username, u.username),
                                email := Overwrite(b.email, u.email))
            && r.response == Ok(200, ProfileUpdated, Account(ProfileOf(r.store[i]))))
  {
    match Find(store, ById(id))
    case None => Step(store, Fail(404, UserNotFound, []))
    case Some(i) =>
      assert forall j :: FirstHit(store, ById(id), j) ==> j == i;
      var u := store[i];
      if Truthy(b.email) && b.email.value != u.email && Find(store, ByEmailOfOther(b.email.value, u.id)).Some? then
        Step(store, Fail(400, EmailTaken, []))
      else if Truthy(b.username) && b.username.value != u.username
              && Find(store, ByUsernameOfOther(b.username.value, u.id)).Some? then
        Step(store, Fail(400, UsernameTaken, []))
      else
        var u' := u.(name := Overwrite(b.name, u.name),
                     username := Overwrite(b.username, u.username),
                     email := Overwrite(b.email, u.email));
        Step(store[i := u'], Ok(200, ProfileUpdated, Account(ProfileOf(u'))))
  }

  /** A profile update keeps every e-mail address and username unique. */
  lemma UpdateProfileKeepsValid(store: Store, id: Id, b: ProfileBody)
    requires Valid(store)
    ensures Valid(UpdateProfile(store, id, b).store)
  {
    var r := UpdateProfile(store, id, b);
    match Find(store, ById(id))
    case None =>
    case Some(i) =>
      var u := store[i];
      if !EmailClash(store, u, b.email) && !UsernameClash(store, u, b.username) {
        var u' := r.store[i];
        forall j | 0 <= j < |store| && j != i
          ensures u'.email != store[j].email && u'.username != store[j].username
        {
          if u'.email != u.email {
            assert !Hits(ByEmailOfOther(u'.email, u.id), store[j]);
          }
          if u'.username != u.username {
            assert !Hits(ByUsernameOfOther(u'.username, u.id), store[j]);
          }
        }
      }
  }

  /** Submitting the record's own e-mail address and username never counts
      as a clash, whatever other records hold. */
  lemma OwnValuesNeverClash(store: Store, id: Id, name: Option<string>, i: int)
    requires FirstHit(store, ById(id), i)
    ensures var b := ProfileBody(name, Some(store[i].username), Some(store[i].email));
      var r := UpdateProfile(store, id, b);
      && r.response == Ok(200, ProfileUpdated, Account(ProfileOf(r.store[i])))
      && r.store[i].email == store[i].email && r.store[i].username == store[i].username
  {
  }

  /** Password change. The checks run in this order and the first failing
      one answers, leaving the store as it was: all three fields present and
      non-empty; the new password equals its confirmation; the new password
      has at least six UTF-16 code units; the record exists; the current
      password matches. No character-class rule applies. On success only
      the credential of that record changes. */
  function ChangePassword(env: Env, store: Store, id: Id, currentPassword: Option<string>,
                          newPassword: Option<string>, confirmPassword: Option<string>): (r: Step)
    ensures r.response.Fail? ==> r.store == store && r.response.errors == []
    ensures !(Truthy(currentPassword) && Truthy(newPassword) && Truthy(confirmPassword)) ==>
      r.response == Fail(400, AllFieldsRequired, [])
    ensures Truthy(currentPassword) && Truthy(newPassword) && Truthy(confirmPassword) && newPassword != confirmPassword ==>
      r.response == Fail(400, NewPasswordsDiffer, [])
    ensures Truthy(currentPassword) && Truthy(newPassword) && newPassword == confirmPassword && Utf16Length(newPassword.value) < 6 ==>
      r.response == Fail(400, NewPasswordTooShort, [])
    ensures Truthy(currentPassword) && Truthy(newPassword) && newPassword == confirmPassword && Utf16Length(newPassword.value) >= 6 ==>
      && (NoHit(store, ById(id)) ==> r.response == Fail(404, UserNotFound, []))
      && forall i :: FirstHit(store, ById(id), i) ==>
           && (!env.passwordMatches(store[i].passwordHash, currentPassword.value) ==>
                 r.response == Fail(400, WrongCurrentPassword, []))
           && (env.passwordMatches(store[i].passwordHash, currentPassword.value) ==>
                 && SameExcept(store, r.store, i)
                 && r.store[i] == store[i].(passwordHash := env.hashPassword(newPassword.value))
                 && r.response == Ok(200, PasswordUpdated, NoData))
  {
    if !Truthy(currentPassword) || !Truthy(newPassword) || !Truthy(confirmPassword) then
      Step(store, Fail(400, AllFieldsRequired, []))
    else if newPassword.value != confirmPassword.value then
      Step(store, Fail(400, NewPasswordsDiffer, []))
    else if Utf16Length(newPassword.value) < 6 then
      Step(store, Fail(400, NewPasswordTooShort, []))
    else
      match Find(store, ById(id))
      case None => Step(store, Fail(404, UserNotFound, []))
      case Some(i) =>
        assert forall j :: FirstHit(store, ById(id), j) ==> j == i;
        if !env.passwordMatches(store[i].passwordHash, currentPassword.value) then
          Step(store, Fail(400, WrongCurrentPassword, []))
        else
          Step(store[i := store[i].(passwordHash := env.hashPassword(newPassword.value))], Ok(200, PasswordUpdated, NoData))
  }

  /** A password the registration and reset rules refuse ("aaaaaa": no
      upper-case letter, no digit) is accepted by a password change. */
  lemma ChangePasswordSkipsStrengthRule(env: Env, store: Store, i: int, current: string)
    requires DistinctIds(store) && 0 <= i < |store| && current != ""
    requires env.passwordMatches(store[i].passwordHash, current)
    ensures PasswordErrors(Some("aaaaaa")) != []
    ensures ChangePassword(env, store, store[i].id, Some(current), Some("aaaaaa"), Some("aaaaaa")).response.Ok?
  {
    var p := "aaaaaa";
    assert !FirstLineHas(p, Upper) by {
      assert !FirstLineHas(p[5..], Upper);
      assert !FirstLineHas(p[4..], Upper);
      assert !FirstLineHas(p[3..], Upper);
      assert !FirstLineHas(p[2..], Upper);
      assert !FirstLineHas(p[1..], Upper);
    }
    FirstLineHasIsLookahead(p, Upper);
    assert FieldError(Password, PasswordStrength) in PasswordErrors(Some(p));
    assert Utf16Length(p) == 6;
    FindByIdAt(store, i);
  }

  function GetSettings(store: Store, id: Id): (r: Response)
    ensures NoHit(store, ById(id)) <==> r == Fail(404, UserNotFound, [])
    ensures forall i :: FirstHit(store, ById(id), i) ==> r == Ok(200, SettingsShown, Settings(store[i].preferences))
  {
    match Find(store, ById(id))
    case None => Fail(404, UserNotFound, [])
    case Some(i) =>
      assert forall j :: FirstHit(store, ById(id), j) ==> j == i;
      Ok(200, SettingsShown, Settings(store[i].preferences))
  }

  /** `typeof v === 'boolean'` for an optional JSON value. */
  predicate IsBool(v: Option<Json>) {
    v.Some? && v.value.JBool?
  }

  /** A boolean value replaces the flag; any other value, or none, leaves it. */
  function Flag(v: Option<Json>, current: bool): bool {
    if IsBool(v) then v.value.b else current
  }

  /** Settings update: each preference takes the supplied value only when
      that value is a boolean; only the preferences of the record change. */
  function UpdateSettings(store: Store, id: Id, notifications: Option<Json>, darkMode: Option<Json>): (r: Step)
    ensures NoHit(store, ById(id)) ==> r == Step(store, Fail(404, UserNotFound, []))
    ensures forall i :: FirstHit(store, ById(id), i) ==> SameExcept(store, r.store, i)
    ensures forall i :: FirstHit(store, ById(id), i) && SameExcept(store, r.store, i) ==>
      var p := r.store[i].preferences;
      && r.store[i].(preferences := store[i].preferences) == store[i]
      && (notifications == Some(JBool(true)) ==> p.notifications)
      && (notifications == Some(JBool(false)) ==> !p.notifications)
      && (!IsBool(notifications) ==> p.notifications == store[i].preferences.notifications)
      && (darkMode == Some(JBool(true)) ==> p.darkMode)
      && (darkMode == Some(JBool(false)) ==> !p.darkMode)
      && (!IsBool(darkMode) ==> p.darkMode == store[i].preferences.darkMode)
      && r.response == Ok(200, SettingsUpdated, Settings(p))
  {
    match Find(store, ById(id))
    case None => Step(store, Fail(404, UserNotFound, []))
    case Some(i) =>
      assert forall j :: FirstHit(store, ById(id), j) ==> j == i;
      var prior := store[i].preferences;
      var p := Preferences(Flag(notifications, prior.notifications), Flag(darkMode, prior.darkMode));
      Step(store[i := store[i].(preferences := p)], Ok(200, SettingsUpdated, Settings(p)))
  }

  /** Non-boolean values change nothing at all. */
  lemma NonBooleanSettingsIgnored(store: Store, id: Id, notifications: Option<Json>, darkMode: Option<Json>)
    requires !IsBool(notifications) && !IsBool(darkMode)
    ensures UpdateSettings(store, id, notifications, darkMode).store == store
  {
    var r := UpdateSettings(store, id, notifications, darkMode);
    match Find(store, ById(id))
    case None =>
    case Some(i) =>
      assert r.store[i] == store[i];
      assert forall j :: 0 <= j < |store| ==> r.store[j] == store[j];
  }

  /** The two preferences are independent: what is sent for one never
      affects the other. */
  lemma SettingsFieldsIndependent(store: Store, id: Id, n1: Option<Json>, n2: Option<Json>,
                                  d1: Option<Json>, d2: Option<Json>, i: int)
    requires FirstHit(store, ById(id), i)
    ensures UpdateSettings(store, id, n1, d1).store[i].preferences.darkMode
         == UpdateSettings(store, id, n2, d1).store[i].preferences.darkMode
    ensures UpdateSettings(store, id, n1, d1).store[i].preferences.notifications
         == UpdateSettings(store, id, n1, d2).store[i].preferences.notifications
  {
  }

  /** Account deletion is soft: the record stays, marked inactive, with
      every other field as it was. */
  function Deactivate(store: Store, id: Id): (r: Step)
    ensures NoHit(store, ById(id)) ==> r == Step(store, Fail(404, UserNotFound, []))
    ensures forall i :: FirstHit(store, ById(id), i) ==> SameExcept(store, r.store, i)
    ensures forall i :: FirstHit(store, ById(id), i) && SameExcept(store, r.store, i) ==>
      var u := store[i];
      var v := r.store[i];
      && !v.isActive
      && v.id == u.id && v.name == u.name && v.username == u.username && v.email == u.email
      && v.passwordHash == u.passwordHash && v.preferences == u.preferences && v.reset == u.reset
      && r.response == Ok(200, AccountDeactivated, NoData)
  {
    match Find(store, ById(id))
    case None => Step(store, Fail(404, UserNotFound, []))
    case Some(i) =>
      assert forall j :: FirstHit(store, ById(id), j) ==> j == i;
      Step(store[i := store[i].(isActive := false)], Ok(200, AccountDeactivated, NoData))
  }

}

=== FILE: validation.dfy ===
/** The per-endpoint input rules that run before any handler: each rule
    chain either records field errors or lets the (sanitised) value through.
    An absent body field reads as the empty string, as the validator library
    renders `undefined`; a chain marked optional is skipped when its field is
    absent. Chains run in declaration order and every failing check of a
    chain is recorded, so the error list is in rule order. */
module Validation {

  import opened Wrappers
  import opened Text
  import opened Platform

  datatype Field = Name | Username | Email | Password | ConfirmPassword

  /** One constructor per error message the rules can attach. */
  datatype Violation =
    | NameLength         // the name must have 2 to 50 characters
    | UsernameLength     // the username must have 3 to 20 characters
    | UsernameCharset    // only letters, digits, dot and underscore
    | EmailFormat        // not a valid e-mail address
    | PasswordLength     // at least 6 characters
    | PasswordStrength   // needs an upper-case letter, a lower-case letter and a digit
    | PasswordMismatch   // the confirmation differs from the password
    | PasswordRequired   // the login password is empty

  datatype FieldError = FieldError(field: Field, violation: Violation)

  datatype RegisterBody = RegisterBody(
    name: Option<string>,
    username: Option<string>,
    email: Option<string>,
    password: Option<string>,
    confirmPassword: Option<string>)

  datatype LoginBody = LoginBody(email: Option<string>, password: Option<string>)

  datatype NewPasswordBody = NewPasswordBody(password: Option<string>, confirmPassword: Option<string>)

  datatype ProfileBody = ProfileBody(name: Option<string>, username: Option<string>, email: Option<string>)

  /** The text a rule inspects: an absent field reads as "". */
  function TextOf(v: Option<string>): string {
    if v.Some? then v.value else ""
  }

  // ---------------------------------------------------------------------
  // Character-level patterns

  predicate IsUsernameChar(c: char) {
    'a' <= c <= 'z' || 'A' <= c <= 'Z' || '0' <= c <= '9' || c == '.' || c == '_'
  }

  /** `^[a-zA-Z0-9._]+$`: at least one character, none outside the class. */
  predicate MatchesUsernamePattern(s: string) {
    |s| > 0 && forall i :: 0 <= i < |s| ==> IsUsernameChar(s[i])
  }

  datatype CharClass = Lower | Upper | Digit

  /** `[a-z]`, `[A-Z]` and `\d`; all three are ASCII-only. */
  predicate InClass(c: char, k: CharClass) {
    match k
    case Lower => 'a' <= c <= 'z'
    case Upper => 'A' <= c <= 'Z'
    case Digit => '0' <= c <= '9'
  }

  /** The characters `.` refuses to match. */
  predicate IsLineTerminator(c: char) {
    var n := c as int;
    n == 0x0A || n == 0x0D || n == 0x2028 || n == 0x2029
  }

  /** What the lookahead `(?=.*[k])` at the start of the input demands: some
      character of class `k` that no line terminator precedes. */
  ghost predicate LookaheadFinds(s: string, k: CharClass) {
    exists i :: 0 <= i < |s| && InClass(s[i], k) && forall j :: 0 <= j < i ==> !IsLineTerminator(s[j])
  }

  /** Scans the first line of `s` for a character of class `k`. */
  function FirstLineHas(s: string, k: CharClass): bool {
    if |s| == 0 || IsLineTerminator(s[0]) then false
    else InClass(s[0], k) || FirstLineHas(s[1..], k)
  }

  lemma {:induction false} FirstLineHasIsLookahead(s: string, k: CharClass)
    ensures FirstLineHas(s, k) <==> LookaheadFinds(s, k)
  {
    if |s| == 0 {
    } else if IsLineTerminator(s[0]) {
    } else if InClass(s[0], k) {
      assert LookaheadFinds(s, k);
    } else {
      FirstLineHasIsLookahead(s[1..], k);
      if FirstLineHas(s[1..], k) {
        var i :| 0 <= i < |s[1..]| && InClass(s[1..][i], k) && forall j :: 0 <= j < i ==> !IsLineTerminator(s[1..][j]);
        assert forall j :: 0 <= j < i + 1 ==> !IsLineTerminator(s[j]) by {
          forall j | 0 <= j < i + 1
            ensures !IsLineTerminator(s[j])
          {
            if j > 0 {
              assert s[j] == s[1..][j - 1];
            }
          }
        }
        assert InClass(s[i + 1], k);
      }
      if LookaheadFinds(s, k) {
        var i :| 0 <= i < |s| && InClass(s[i], k) && forall j :: 0 <= j < i ==> !IsLineTerminator(s[j]);
        assert i > 0;
        assert forall j :: 0 <= j < i - 1 ==> !IsLineTerminator(s[1..][j]) by {
          forall j | 0 <= j < i - 1
            ensures !IsLineTerminator(s[1..][j])
          {
            assert s[1..][j] == s[j + 1];
          }
        }
        assert InClass(s[1..][i - 1], k);
      }
    }
  }

  /** `^(?=.*[a-z])(?=.*[A-Z])(?=.*\d)`. */
  predicate MatchesStrengthPattern(s: string) {
    FirstLineHas(s, Lower) && FirstLineHas(s, Upper) && FirstLineHas(s, Digit)
  }

  /** U+FE0E and U+FE0F, the text and emoji presentation selectors. */
  predicate IsPresentationSelector(c: char) {
    c as int == 0xFE0E || c as int == 0xFE0F
  }

  /** The length `isLength` measures: characters, with presentation
      selectors not counted. */
  function ValidatorLength(s: string): (n: nat)
    ensures n <= |s|
  {
    if |s| == 0 then 0
    else (if IsPresentationSelector(s[0]) then 0 else 1) + ValidatorLength(s[1..])
  }

  /** The measured length is the character count exactly when no
      presentation selector occurs. */
  lemma {:induction false} ValidatorLengthIsCount(s: string)
    ensures ValidatorLength(s) == |s| <==> forall i :: 0 <= i < |s| ==> !IsPresentationSelector(s[i])
  {
    if |s| > 0 {
      ValidatorLengthIsCount(s[1..]);
      assert forall i :: 1 <= i < |s| ==> s[i] == s[1..][i - 1];
    }
  }

  /** The measured length of a concatenation is the sum of the parts'. */
  lemma {:induction false} ValidatorLengthConcat(a: string, b: string)
    ensures ValidatorLength(a + b) == ValidatorLength(a) + ValidatorLength(b)
    decreases |a|
  {
    if |a| == 0 {
      assert a + b == b;
    } else {
      assert (a + b)[1..] == a[1..] + b;
      ValidatorLengthConcat(a[1..], b);
    }
  }

  /** A string of username characters holds no presentation selector, so
      its measured length is its character count. */
  lemma PatternMeasuresCharacters(t: string)
    requires MatchesUsernamePattern(t)
    ensures ValidatorLength(t) == |t|
  {
    assert forall i :: 0 <= i < |t| ==> IsUsernameChar(t[i]) && !IsPresentationSelector(t[i]);
    ValidatorLengthIsCount(t);
  }

  // ---------------------------------------------------------------------
  // Rule chains

  /** `name`: trimmed, then 2 to 50 characters. */
  function NameErrors(v: Option<string>): (errs: seq<FieldError>)
    ensures errs == [] <==> 2 <= ValidatorLength(Trim(TextOf(v))) <= 50
    ensures errs == [] || errs == [FieldError(Name, NameLength)]
  {
    var t := Trim(TextOf(v));
    if 2 <= ValidatorLength(t) <= 50 then [] else [FieldError(Name, NameLength)]
  }

  /** `username` as a profile update checks it: trimmed and 3 to 20
      characters, with no character-set rule. */
  function UsernameLengthErrors(v: Option<string>): (errs: seq<FieldError>)
    ensures errs == [] <==> 3 <= ValidatorLength(Trim(TextOf(v))) <= 20
    ensures errs == [] || errs == [FieldError(Username, UsernameLength)]
  {
    var t := Trim(TextOf(v));
    if 3 <= ValidatorLength(t) <= 20 then [] else [FieldError(Username, UsernameLength)]
  }

  /** `username` as registration checks it: trimmed, 3 to 20 characters,
      and only characters of `[a-zA-Z0-9._]`; each failing check reports,
      the length first. */
  function UsernameErrors(v: Option<string>): (errs: seq<FieldError>)
    ensures var t := Trim(TextOf(v));
      errs == [] <==> 3 <= ValidatorLength(t) <= 20 && MatchesUsernamePattern(t)
    ensures var t := Trim(TextOf(v));
      FieldError(Username, UsernameLength) in errs <==> !(3 <= ValidatorLength(t) <= 20)
    ensures var t := Trim(TextOf(v));
      FieldError(Username, UsernameCharset) in errs <==> !MatchesUsernamePattern(t)
    ensures forall e :: e in errs ==> e.field == Username
  {
    var t := Trim(TextOf(v));
    var lengthOk := 3 <= ValidatorLength(t) <= 20;
    var charsetOk := MatchesUsernamePattern(t);
    if lengthOk && charsetOk then []
    else if lengthOk then [FieldError(Username, UsernameCharset)]
    else if charsetOk then [FieldError(Username, UsernameLength)]
    else [FieldError(Username, UsernameLength), FieldError(Username, UsernameCharset)]
  }

  /** `email`: must be an e-mail address (checked before normalisation). */
  function EmailErrors(env: Env, v: Option<string>): (errs: seq<FieldError>)
    ensures errs == [] <==> env.isEmail(TextOf(v))
    ensures errs == [] || errs == [FieldError(Email, EmailFormat)]
  {
    if env.isEmail(TextOf(v)) then [] else [FieldError(Email, EmailFormat)]
  }

  /** `password` for registration and reset: at least 6 characters, and an
      ASCII lower-case letter, upper-case letter and digit, each before the
      first line terminator. Both checks report. */
  function PasswordErrors(v: Option<string>): (errs: seq<FieldError>)
    ensures var p := TextOf(v);
      errs == [] <==> ValidatorLength(p) >= 6 && LookaheadFinds(p, Lower) && LookaheadFinds(p, Upper) && LookaheadFinds(p, Digit)
    ensures FieldError(Password, PasswordLength) in errs <==> ValidatorLength(TextOf(v)) < 6
    ensures var p := TextOf(v);
      FieldError(Password, PasswordStrength) in errs <==>
        !(LookaheadFinds(p, Lower) && LookaheadFinds(p, Upper) && LookaheadFinds(p, Digit))
    ensures forall e :: e in errs ==> e.field == Password
  {
    var p := TextOf(v);
    FirstLineHasIsLookahead(p, Lower);
    FirstLineHasIsLookahead(p, Upper);
    FirstLineHasIsLookahead(p, Digit);
    (if ValidatorLength(p) >= 6 then [] else [FieldError(Password, PasswordLength)])
    + (if MatchesStrengthPattern(p) then [] else [FieldError(Password, PasswordStrength)])
  }

  /** `confirmPassword`: strictly equal to `password`; an absent field
      equals only another absent field. */
  function ConfirmErrors(confirm: Option<string>, password: Option<string>): (errs: seq<FieldError>)
    ensures errs == [] <==> confirm == password
    ensures errs == [] || errs == [FieldError(ConfirmPassword, PasswordMismatch)]
  {
    if confirm == password then [] else [FieldError(ConfirmPassword, PasswordMismatch)]
  }

  /** The login `password`: only non-empty. */
  function RequiredPasswordErrors(v: Option<string>): (errs: seq<FieldError>)
    ensures errs == [] <==> TextOf(v) != ""
    ensures errs == [] || errs == [FieldError(Password, PasswordRequired)]
  {
    if TextOf(v) != "" then [] else [FieldError(Password, PasswordRequired)]
  }

  // ---------------------------------------------------------------------
  // Rule sets, one per endpoint

  ghost predicate StrongPassword(p: string) {
    ValidatorLength(p) >= 6 && LookaheadFinds(p, Lower) && LookaheadFinds(p, Upper) && LookaheadFinds(p, Digit)
  }

  function RegisterErrors(env: Env, b: RegisterBody): (errs: seq<FieldError>)
    ensures errs == [] <==>
      && 2 <= ValidatorLength(Trim(TextOf(b.name))) <= 50
      && 3 <= ValidatorLength(Trim(TextOf(b.username))) <= 20
      && MatchesUsernamePattern(Trim(TextOf(b.username)))
      && env.isEmail(TextOf(b.email))
      && StrongPassword(TextOf(b.password))
      && b.confirmPassword == b.password
  {
    NameErrors(b.name) + UsernameErrors(b.username) + EmailErrors(env, b.email)
    + PasswordErrors(b.password) + ConfirmErrors(b.confirmPassword, b.password)
  }

  /** Login asks for an e-mail address and any non-empty password; no
      strength rule applies. */
  function LoginErrors(env: Env, b: LoginBody): (errs: seq<FieldError>)
    ensures errs == [] <==> env.isEmail(TextOf(b.email)) && TextOf(b.password) != ""
  {
    EmailErrors(env, b.email) + RequiredPasswordErrors(b.password)
  }

  /** The forgot-password request carries only an e-mail address. */
  function ForgotPasswordErrors(env: Env, email: Option<string>): (errs: seq<FieldError>)
    ensures errs == [] <==> env.isEmail(TextOf(email))
  {
    EmailErrors(env, email)
  }

  /** The reset request: the registration password rule plus confirmation. */
  function NewPasswordErrors(b: NewPasswordBody): (errs: seq<FieldError>)
    ensures errs == [] <==> StrongPassword(TextOf(b.password)) && b.confirmPassword == b.password
  {
    PasswordErrors(b.password) + ConfirmErrors(b.confirmPassword, b.password)
  }

  /** Profile updates: every rule is optional; a present username is only
      length-checked. */
  function ProfileErrors(env: Env, b: ProfileBody): (errs: seq<FieldError>)
    ensures errs == [] <==>
      && (b.name.Some? ==> 2 <= ValidatorLength(Trim(b.name.value)) <= 50)
      && (b.username.Some? ==> 3 <= ValidatorLength(Trim(b.username.value)) <= 20)
      && (b.email.Some? ==> env.isEmail(b.email.value))
  {
    (if b.name.None? then [] else NameErrors(b.name))
    + (if b.username.None? then [] else UsernameLengthErrors(b.username))
    + (if b.email.None? then [] else EmailErrors(env, b.email))
  }

  // ---------------------------------------------------------------------
  // Sanitisers: what the handlers receive once the rules pass

  datatype Registration = Registration(name: string, username: string, email: string, password: string)

  /** What the register handler reads: name and username trimmed (what
      was sent, less the whitespace at either end: by `PaddedTidyIsTrim`
      these two facts determine the value), the e-mail address normalised
      and the password exactly as sent. */
  function SanitizeRegister(env: Env, b: RegisterBody): (r: Registration)
    ensures Tidy(r.name) && PaddedBy(TextOf(b.name), r.name) && |r.name| <= |TextOf(b.name)|
    ensures Tidy(r.username) && PaddedBy(TextOf(b.username), r.username) && |r.username| <= |TextOf(b.username)|
    ensures r.email == env.normalizeEmail(TextOf(b.email))
    ensures r.password == TextOf(b.password)
  {
    TrimIsCore(TextOf(b.name));
    TrimIsCore(TextOf(b.username));
    Registration(Trim(TextOf(b.name)), Trim(TextOf(b.username)), env.normalizeEmail(TextOf(b.email)), TextOf(b.password))
  }

  /** What the profile handler reads: the same fields present as were sent,
      names and usernames trimmed (as in `SanitizeRegister`), e-mail
      addresses normalised. */
  function SanitizeProfile(env: Env, b: ProfileBody): (r: ProfileBody)
    ensures r.name.Some? <==> b.name.Some?
    ensures r.username.Some? <==> b.username.Some?
    ensures r.email.Some? <==> b.email.Some?
    ensures r.name.Some? ==> Tidy(r.name.value) && PaddedBy(b.name.value, r.name.value)
    ensures r.username.Some? ==> Tidy(r.username.value) && PaddedBy(b.username.value, r.username.value)
    ensures r.email.Some? ==> r.email.value == env.normalizeEmail(b.email.value)
  {
    TrimIsCore(TextOf(b.name));
    TrimIsCore(TextOf(b.username));
    ProfileBody(
      if b.name.Some? then Some(Trim(b.name.value)) else None,
      if b.username.Some? then Some(Trim(b.username.value)) else None,
      if b.email.Some? then Some(env.normalizeEmail(b.email.value)) else None)
  }

  // ---------------------------------------------------------------------
  // Consequences of the rule sets

  /** A registration that passes its rules hands the handler a name of 2 to
      50 characters and a username of 3 to 20 pattern characters (both
      already trimmed, by `SanitizeRegister`). */
  lemma RegisterRulesBoundSanitized(env: Env, b: RegisterBody)
    requires RegisterErrors(env, b) == []
    ensures var r := SanitizeRegister(env, b);
      && 2 <= ValidatorLength(r.name) <= 50 && 2 <= |r.name|
      && 3 <= |r.username| <= 20
      && MatchesUsernamePattern(r.username)
  {
    assert NameErrors(b.name) == [] && UsernameErrors(b.username) == [];
    PassingUsernameMeasuresCharacters(b.username);
  }

  lemma PassingUsernameMeasuresCharacters(v: Option<string>)
    requires UsernameErrors(v) == []
    ensures 3 <= |Trim(TextOf(v))| <= 20
  {
    PatternMeasuresCharacters(Trim(TextOf(v)));
  }

  /** Presentation selectors are not counted: a password of three letters
      and digits followed by three U+FE0F is six characters long but fails
      the six-character minimum. */
  lemma SelectorsAreNotCounted()
    ensures var sel := 0xFE0F as char;
      var p := "Ab1" + [sel, sel, sel];
      && |p| == 6 && ValidatorLength(p) == 3
      && FieldError(Password, PasswordLength) in PasswordErrors(Some(p))
  {
    var sel := 0xFE0F as char;
    var a := "Ab1";
    var p := a + [sel, sel, sel];
    assert !IsPresentationSelector(a[0]) && !IsPresentationSelector(a[1]) && !IsPresentationSelector(a[2]);
    ValidatorLengthIsCount(a);
    assert ValidatorLength(a) == 3;
    assert ValidatorLength([sel]) == 0;
    ValidatorLengthConcat([sel], [sel]);
    assert [sel] + [sel] == [sel, sel];
    ValidatorLengthConcat([sel], [sel, sel]);
    assert [sel] + [sel, sel] == [sel, sel, sel];
    ValidatorLengthConcat(a, [sel, sel, sel]);
  }

  /** A trimmed username of 3 to 20 measured characters passes the profile
      rules, whatever its characters. */
  lemma TidyUsernamePassesProfile(env: Env, s: string)
    requires Tidy(s) && 3 <= ValidatorLength(s) <= 20
    ensures ProfileErrors(env, ProfileBody(None, Some(s), None)) == []
  {
    TidyIsTrimmed(s);
  }

  /** A trimmed username holding a character outside `[a-zA-Z0-9._]` draws
      the registration character-set error. */
  lemma ForeignCharDrawsCharsetError(s: string, i: nat)
    requires Tidy(s) && i < |s| && !IsUsernameChar(s[i])
    ensures FieldError(Username, UsernameCharset) in UsernameErrors(Some(s))
  {
    TidyIsTrimmed(s);
  }

  /** A profile update may set a username the registration rules refuse:
      the character-set rule is missing there. */
  lemma ProfileUsernameSkipsCharset(env: Env)
    ensures ProfileErrors(env, ProfileBody(None, Some("a-b"), None)) == []
    ensures !MatchesUsernamePattern(Trim("a-b"))
    ensures FieldError(Username, UsernameCharset) in UsernameErrors(Some("a-b"))
  {
    var s := "a-b";
    TidyIsTrimmed(s);
    assert ValidatorLength(s) == 3;
    assert !IsUsernameChar(s[1]);
  }

  /** An empty profile update passes every rule. */
  lemma EmptyProfileBodyPasses(env: Env)
    ensures ProfileErrors(env, ProfileBody(None, None, None)) == []
  {
  }

}

=== FILE: walkthrough.dfy ===
/** One account's life on concrete inputs: registration, a failed login,
    a forgotten password, a reset and a login with the new password. */
module Walkthrough {

  import opened Wrappers
  import opened Text
  import opened UserStore
  import opened Platform
  import opened Validation
  import opened Http
  import opened AuthRoutes
  import opened Lifecycle

  lemma AdaPasswordIsStrong()
    ensures StrongPassword("Passw0rd")
  {
    var pw := "Passw0rd";
    assert ValidatorLength(pw) == 8 by {
      assert forall i :: 0 <= i < |pw| ==> pw[i] as int < 0x7F;
      ValidatorLengthIsCount(pw);
    }
    assert FirstLineHas(pw, Upper);
    assert FirstLineHas(pw, Lower) by {
      assert FirstLineHas(pw[1..], Lower);
    }
    assert FirstLineHas(pw, Digit) by {
      assert FirstLineHas(pw[5..], Digit);
      assert FirstLineHas(pw[4..], Digit);
      assert FirstLineHas(pw[3..], Digit);
      assert FirstLineHas(pw[2..], Digit);
      assert FirstLineHas(pw[1..], Digit);
    }
    FirstLineHasIsLookahead(pw, Lower);
    FirstLineHasIsLookahead(pw, Upper);
    FirstLineHasIsLookahead(pw, Digit);
  }

  /** A name measuring 2 to 50 with no whitespace at either end passes. */
  lemma TidyNameOk(s: string)
    requires 2 <= ValidatorLength(s) <= 50 && Tidy(s)
    ensures NameErrors(Some(s)) == [] && Trim(s) == s
  {
    TidyIsTrimmed(s);
  }

  /** A username of 3 to 20 pattern characters passes. */
  lemma TidyUsernameOk(s: string)
    requires 3 <= |s| <= 20 && forall i :: 0 <= i < |s| ==> IsUsernameChar(s[i])
    ensures UsernameErrors(Some(s)) == [] && Trim(s) == s
  {
    assert !IsWhitespace(s[0]) && !IsWhitespace(s[|s| - 1]) by {
      assert IsUsernameChar(s[0]) && IsUsernameChar(s[|s| - 1]);
    }
    TidyIsTrimmed(s);
    assert TextOf(Some(s)) == s;
    assert MatchesUsernamePattern(s);
    PatternMeasuresCharacters(s);
    assert 3 <= ValidatorLength(Trim(TextOf(Some(s)))) <= 20;
  }

  /** A registration whose name and username pass their rules untrimmed,
      with a valid e-mail address and a strong, confirmed password, passes
      every rule and reaches the handler as sent, apart from the e-mail
      normalisation. */
  lemma TidyRegistrationPasses(env: Env, name: string, username: string, email: string, password: string)
    requires NameErrors(Some(name)) == [] && Trim(name) == name
    requires UsernameErrors(Some(username)) == [] && Trim(username) == username
    requires env.isEmail(email) && StrongPassword(password)
    ensures var b := RegisterBody(Some(name), Some(username), Some(email), Some(password), Some(password));
      && RegisterErrors(env, b) == []
      && SanitizeRegister(env, b) == Registration(name, username, env.normalizeEmail(email), password)
  {
    var b := RegisterBody(Some(name), Some(username), Some(email), Some(password), Some(password));
    assert PasswordErrors(b.password) == [];
    assert EmailErrors(env, b.email) == [];
    assert ConfirmErrors(b.confirmPassword, b.password) == [];
  }

  /** The example name and username are tidy. */
  lemma AdaNameTidy()
    ensures NameErrors(Some("Ada L")) == [] && Trim("Ada L") == "Ada L"
  {
    var s := "Ada L";
    assert ValidatorLength(s) == 5 by {
      assert forall i :: 0 <= i < |s| ==> s[i] as int < 0x7F;
      ValidatorLengthIsCount(s);
    }
    TidyNameOk(s);
  }

  lemma AdaUsernameTidy()
    ensures UsernameErrors(Some("ada_l")) == [] && Trim("ada_l") == "ada_l"
  {
    TidyUsernameOk("ada_l");
  }

  /** Registration from an empty store, a login with a wrong password, a
      forgot-password request, a reset within the ten-minute window and a
      login with the new password: 201, 401, 200, 200, 200. `AdaNameTidy`,
      `AdaUsernameTidy` and `AdaPasswordIsStrong` show the example values
      meet the hypotheses. */
  lemma AccountLifecycle(env: Env, name: string, username: string, email: string, password: string,
                         newId: Id, wrong: string, raw: string, newPassword: string,
                         t0: int, t1: int, t2: int, t3: int, t4: int)
    requires Sound(env)
    requires NameErrors(Some(name)) == [] && Trim(name) == name
    requires UsernameErrors(Some(username)) == [] && Trim(username) == username
    requires env.isEmail(email) && StrongPassword(password)
    requires wrong != "" && !env.passwordMatches(env.hashPassword(password), wrong)
    requires IsResetTokenText(raw)
    requires StrongPassword(newPassword)
    requires t2 <= t3 < t2 + ResetWindowMs
    ensures var s1 := RegisterRoute(env, [], RegisterBody(Some(name), Some(username), Some(email), Some(password), Some(password)), newId, t0);
      && s1.response.status == 201
      && s1.response.data.Session? && s1.response.data.user.username == username
      && s1.response.data.token == env.sign(newId, t0) != ""
      && var login1 := LoginRoute(env, s1.store, LoginBody(Some(email), Some(wrong)), t1);
      && login1 == Step(s1.store, Fail(401, InvalidCredentials, []))
      && var s2 := ForgotPasswordRoute(env, s1.store, Some(email), raw, t2);
      && s2.response == Ok(200, ResetLinkSent, ResetTokenIssued(raw))
      && var s3 := ResetPasswordRoute(env, s2.store, raw, NewPasswordBody(Some(newPassword), Some(newPassword)), t3);
      && s3.response.Ok? && s3.response.status == 200
      && LoginRoute(env, s3.store, LoginBody(Some(email), Some(newPassword)), t4).response.Ok?
  {
    var body := RegisterBody(Some(name), Some(username), Some(email), Some(password), Some(password));
    TidyRegistrationPasses(env, name, username, email, password);
    var reg := SanitizeRegister(env, body);
    var e := env.normalizeEmail(email);
    var s1 := Register(env, [], reg, newId, t0);
    assert RegisterRoute(env, [], body, newId, t0) == s1;
    assert !Taken([], reg.email, reg.username);
    assert s1.store == [NewAccount(env, newId, reg)];
    assert FirstHit(s1.store, ByEmail(e), 0);
    assert LoginErrors(env, LoginBody(Some(email), Some(wrong))) == [];
    var s2 := ForgotPassword(env, s1.store, e, raw, t2);
    assert ForgotPasswordRoute(env, s1.store, Some(email), raw, t2) == s2;
    assert s2.store[0].reset == Some(ResetTicket(env.digest(raw), t2 + 600000));
    assert FirstHit(s2.store, ByLiveReset(env.digest(raw), t3), 0);
    assert NewPasswordErrors(NewPasswordBody(Some(newPassword), Some(newPassword))) == [];
    var s3 := ResetPassword(env, s2.store, raw, newPassword, t3);
    assert s3.store[0].passwordHash == env.hashPassword(newPassword);
    assert s3.store[0].email == e && s3.store[0].isActive;
    assert FirstHit(s3.store, ByEmail(e), 0);
    assert env.passwordMatches(env.hashPassword(newPassword), newPassword);
    assert LoginErrors(env, LoginBody(Some(email), Some(newPassword))) == [];
  }

}

=== FILE: wrappers.dfy ===
/** The optional-value type shared by every module of the model: an absent
    request field, a lookup that found nothing, a token that did not verify. */
module Wrappers {

  datatype Option<+T> = None | Some(value: T)

}
